=== FILE: README.md ===
# lantern core, modelled in Dafny

lantern is a small CPU ray tracer. This model covers four pieces of it.

- **The renderer (`Lantern`).**
  - `trace_ray` scans the scene's spheres in list order. It drops a sphere when the discriminant or the near root is negative, and keeps a candidate only when it is strictly nearer.
  - `closest_hit` builds the hit payload.
  - `per_pixel` traces at most two bounces, stops at the first miss and multiplies a weight by 0.7 after every hit.
  - `new`, `resize` and `update` size a row-major buffer of packed pixel words and fill it row by row.
- **The first-person camera.**
  - Keyboard and cursor events drive six movement flags and the mouse-grab toggle.
  - `update` moves the camera by a frame-time step capped at 1/60 s.
  - `reevaluate_rays` builds one ray direction per pixel, where slot `i` stands for pixel `(i % width, i / width)`.
- **The texture wrapper `Image`.**
  - Format dispatch on the file extension happens before any file is opened.
  - The label defaults to the file name.
  - `load_image` checks the length of the upload.
  - `resize` does nothing when the extent is unchanged.
- **Start-up.**
  - The window icon's RGB pixels are widened to RGBA with an opaque alpha.
  - The event loop exits with code 0 on a close request or an Escape press on the program's own window.

Vectors are exact reals. Float operations whose result the model does not need are function-valued parameters: square root, normal renormalisation, reflection, quaternion rotation and unprojection.

The model represents one IEEE effect, the 0/0 of a zero ray direction, and keeps it explicit; other IEEE effects are listed under "Left out". For a zero ray direction the quadratic's leading and middle coefficients are both 0, so the discriminant is 0 and passes the `< 0.0` test. The near root is then 0/0, a NaN, and `NaN < 0.0` is false, so the first sphere is kept with a NaN distance (src/lantern/mod.rs:133-142). The hit's position, normal and the next ray are NaN, written `Root.NotANumber`, `Trace.Undefined` and a `None` beam. The NaN does not reach the colour: the intensity is `NaN.max(0.0)`, and `f32::max` returns the operand that is not NaN, so an undefined hit adds black.

`u32` products such as `width * height` and `pixels * 4` wrap as in a release build (`Numeric.WrappingMul`). Out-of-bounds indexing, failed assertions and integer division by zero are `Result.Panic`.

Modules, one per source component:

- `Numeric` and `Vector`: integer wrap and vector arithmetic.
- `SceneData`: src/lantern/scene.rs and src/lantern/ray.rs.
- `Intersection`: `trace_ray` and `closest_hit`.
- `Renderer`: the rest of src/lantern/mod.rs.
- `Cameras`: src/camera.rs.
- `Textures`: src/lantern/texture.rs.
- `Startup`: src/lib.rs.
- `Winit`: the event types those files match on.

## Model

| member | source | states |
|---|---|---|
| Numeric.WrappingMul | src/lantern/mod.rs:24 | The `u32` product equals the true product when that fits in 32 bits and never exceeds it. |
| Vector.Clamp01 | src/lantern/mod.rs:50 | Each channel of `simd_clamp` ends up in [0, 1]: unchanged inside, 0 below, 1 above. |
| Intersection.NearRoot | src/lantern/mod.rs:126-142 | The per-sphere test gives NaN exactly for a zero direction. An accepted distance is never negative. |
| Intersection.NearRootOnSphere | src/lantern/mod.rs:128-139 | With a true square root, the point at an accepted distance lies on the sphere: it solves the quadratic. |
| Intersection.InsideOriginRejected | src/lantern/mod.rs:133-142 | A ray that starts strictly inside a sphere has its near root behind the origin, so that sphere is skipped. |
| Intersection.FrontHitExample | src/lantern/mod.rs:126-142 | From (0,0,-2) along +Z onto the radius-0.5 sphere at the origin, the accepted distance is exactly 1.5. |
| Intersection.NearRootAccepted | src/lantern/mod.rs:133-142 | For a unit direction, a non-negative discriminant and a non-negative near root `t` with 2t = -b - √disc, the per-sphere test accepts exactly distance `t`. |
| Intersection.Select | src/lantern/mod.rs:117-151 | The scan keeps nothing exactly when every sphere is rejected. Otherwise it keeps the sphere `IsClosest` describes: nearer than every earlier sphere with a distance, no farther than every later one, or the first accepted sphere when the distance is NaN. |
| Intersection.ClosestIsUnique | src/lantern/mod.rs:144-150 | At most one choice satisfies `IsClosest`, so that declarative description pins down what the loop keeps. |
| Intersection.ClosestHit | src/lantern/mod.rs:100-114 | The payload carries the chosen sphere and distance unchanged. Its position is origin + direction · distance, and its normal is computed from the local hit point and the radius. |
| Intersection.TraceRay | src/lantern/mod.rs:116-156 | `None` exactly when every sphere is rejected. A hit is the closest accepted sphere, carries that sphere, and lies on the ray. The NaN result occurs exactly for a zero direction in a non-empty scene. |
| Intersection.ZeroDirectionUndefined | src/lantern/mod.rs:126-150 | With a zero direction in a non-empty scene, the discriminant passes, the 0/0 distance passes, and the first sphere is kept. |
| Intersection.NoHitFromEnclosingSphere | src/lantern/mod.rs:133-142 | `trace_ray` never reports a sphere that encloses the ray's origin. |
| Intersection.NearestEarliestWins | src/lantern/mod.rs:144-150 | When sphere i comes before sphere j and is no farther, the result is a hit that is not j and is at most i's distance. Ties go to the earlier sphere. |
| Renderer.New | src/lantern/mod.rs:22-30 | The output texture has the viewport's extent and the name "Lantern Output". The buffer is zero-filled with one word per texel (`width * height` words when the product fits). |
| Renderer.Resize | src/lantern/mod.rs:32-39 | Resizing to the current extent changes nothing. A new extent resizes the texture and keeps its name. The buffer becomes zero-filled and sized to the new extent. |
| Renderer.ResizeNew | src/lantern/mod.rs:22-39 | Resizing a fresh renderer gives the renderer created at the new size. |
| Renderer.ResizeIdempotent | src/lantern/mod.rs:32-39 | Resizing twice to the same extent is the same as resizing once. |
| Renderer.LightDirection | src/lantern/mod.rs:83 | With a true square root of 3, the normalised light direction (-1,-1,1)/√3 has length 1. |
| Renderer.ShadeNonNegative | src/lantern/mod.rs:81-86 | A hit's lit colour, albedo times the clamped cosine, has no negative channel when the albedo has none. |
| Renderer.Contribution | src/lantern/mod.rs:75-88 | Only a hit adds colour: a miss adds the black sky and an undefined hit adds black. A hit on a surface with no negative albedo channel adds no negative channel. |
| Renderer.TraceBeam | src/lantern/mod.rs:126-150 | On the NaN ray nothing is ever skipped: there is no hit, and the result is a miss only in an empty scene. |
| Renderer.Bounces | src/lantern/mod.rs:74-95 | The bounce loop traces at least once and at most `BOUNCE_LIMIT` times. |
| Renderer.BouncesStopAtMiss | src/lantern/mod.rs:74-79 | Every trace but the last is a hit or undefined. Stopping before the limit means the last trace missed. |
| Renderer.March | src/lantern/mod.rs:71-95 | The loop produces exactly the bounce sequence. The colour is the sum of each trace's contribution weighted by 0.7^k for the k-th trace, with the sky added on a miss. |
| Renderer.PerPixel | src/lantern/mod.rs:61-98 | The pixel's traces start at the camera position along its ray, at most two of them. The colour is `PixelColor` and its alpha is always 1. |
| Renderer.RadianceDark | src/lantern/mod.rs:71-95 | Traces that each contribute black add up to black, whatever their weights. |
| Renderer.DarkAfterUndefined | src/lantern/mod.rs:74-91 | For any tracer: an undefined first trace, followed by the NaN beam that never hits, gives black. |
| Renderer.UndefinedPixelIsBlack | src/lantern/mod.rs:74-91 | A pixel whose primary trace is undefined is (0, 0, 0, 1), not NaN: `max` drops the NaN intensity, and the second bounce is undefined again. |
| Renderer.ZeroBeamUndefined | src/lantern/mod.rs:126-150 | A zero-direction beam in a non-empty scene traces as undefined at sphere 0. |
| Renderer.ZeroDirectionIsBlack | src/lantern/mod.rs:61-98 | A pixel whose camera ray has zero direction is (0, 0, 0, 1), in any scene. |
| Renderer.DarkAfterMiss | src/lantern/mod.rs:74-79 | For any tracer: a first trace that misses, when a miss adds nothing, gives black. |
| Renderer.MissedPixelIsBlack | src/lantern/mod.rs:75-78 | A pixel whose primary ray misses is (0, 0, 0, 1), because the sky is black. |
| Renderer.EmptySceneIsBlack | src/lantern/mod.rs:74-97 | In a scene with no spheres every pixel is (0, 0, 0, 1). |
| Renderer.CastSliceRoundTrip | src/lantern/mod.rs:55 | Casting the words to bytes only reinterprets memory: reading word i back from bytes 4i..4i+3 gives the word. |
| Renderer.FillPixel | src/lantern/mod.rs:47-51 | Slot `y * width + x` receives the packed, clamped colour of pixel (x, y), and no other slot changes. |
| Renderer.FillRow | src/lantern/mod.rs:46-52 | One row's slots are written left to right with their pixels' words. Later slots are untouched. |
| Renderer.PanicIffSlotOutOfRange | src/lantern/mod.rs:44-48 | Some pixel's wrapped `u32` slot `y * width + x` lies past the ray list or the buffer exactly when `width * height` overflows `u32` or exceeds the camera's ray count. |
| Renderer.Update | src/lantern/mod.rs:41-56 | The frame panics exactly when some pixel's wrapped slot is out of range for the ray list or the buffer, which is exactly when `width * height` overflows `u32` or exceeds the camera's ray count. Otherwise every slot i holds the word of pixel i, slots are visited once each in row-major order, and the upload's length check passes. |
| Cameras.Ndc | src/camera.rs:206-211 | A pixel coordinate maps to a normalized device coordinate in [-1, 1). |
| Cameras.PixelOfIndex | src/camera.rs:203-204 | For a slot below `width * height`, `x = i % width` and `y = i / width` lie inside the viewport and `y * width + x = i`. |
| Cameras.RayDirections | src/camera.rs:194-239 | The ray buffer has exactly `width * height` entries as a `u32` product. |
| Cameras.RayAtPixel | src/camera.rs:203-213 | Slot `y * width + x` exists and holds the unprojected direction of pixel (x, y), so every pixel has its ray. |
| Cameras.New | src/camera.rs:33-66 | The camera panics exactly when the projection's assertions fail (`ProjectionPanics`), in particular for a zero width with a positive height. Otherwise it starts at (0, 0, -1) facing +Z with the cursor at the origin. All six flags are clear, the mouse is not grabbed, and the rays match the viewport. |
| Cameras.AspectPanics | src/camera.rs:34-37 | With distinct planes, the projection panics exactly when the height is positive and at least 2^23 times the width: `width / height` is then `relative_eq!` to zero. A zero height never panics. |
| Cameras.AspectNearZero | src/camera.rs:181-183 | The aspect ratio `w / h` of a positive height is within `relative_eq!`'s tolerance of zero exactly when `h >= 2^23 * w`. |
| Cameras.RelativeEqZero | src/camera.rs:183 | A non-negative value is `relative_eq!` to zero exactly when it is at most `f32::EPSILON`. |
| Cameras.KeySlot | src/camera.rs:104-110 | Exactly W, A, S, D, Space and LShift drive a flag, each one of the six. |
| Cameras.KeySlotInjective | src/camera.rs:104-110 | Distinct movement keys drive distinct flags. |
| Cameras.Input | src/camera.rs:68-123 | An event is consumed exactly when it is a cursor move outside the interface, a movement key, or a C press. An unconsumed event changes nothing. A movement key sets its own flag to "pressed" or "released", and no other field changes. A C press flips the grab and changes nothing else. A cursor move records the cursor, rotates forward by the scaled deltas and rebuilds the rays for the new forward; nothing else changes. Position, lens and viewport never change, and the rays stay consistent. |
| Cameras.GrabToggleTwice | src/camera.rs:111-113 | Two C presses give back the original camera. |
| Cameras.KeyboardIgnoresHover | src/camera.rs:68-120 | Keyboard events are handled the same way whether or not the interface is hovered. Only cursor moves are guarded. |
| Cameras.FlagFollowsLastEvent | src/camera.rs:103-110 | A flag reflects only the last press or release of its key. |
| Cameras.TimeStep | src/camera.rs:126 | The step is the frame time in seconds, capped at 1/60, and never negative. |
| Cameras.Update | src/camera.rs:125-163 | The camera reports a move exactly when some flag is set. Otherwise it is unchanged. The position advances by speed × step along the net direction of the held keys. |
| Cameras.Advance | src/camera.rs:128-162 | For any step length, only position and rays change, and the rays are recomputed consistently. |
| Cameras.TravelIsNetMove | src/camera.rs:132-155 | The six conditional moves, taken in source order, add up to one move along forward − back + right − left + up − down. |
| Cameras.OppositeKeysCancel | src/camera.rs:132-143 | Holding W and S together reports a move but leaves the position unchanged. |
| Cameras.Resize | src/camera.rs:165-170 | The call panics exactly when the projection's assertions fail for the new viewport, in particular for a zero width with a positive height. Otherwise the camera adopts the viewport and rebuilds its rays, and nothing else changes. A zero-area viewport that passes gets an empty ray buffer. |
| Cameras.ResizeSameSize | src/camera.rs:165-170 | Resizing a consistent camera to its own viewport succeeds exactly when its projection is valid, and then changes nothing. |
| Cameras.ResizeAfterNew | src/camera.rs:165-170 | Resizing a fresh camera to the viewport it was created with gives the same camera. |
| Textures.New | src/lantern/texture.rs:22-59 | The texture has the requested extent and label. |
| Textures.Size | src/lantern/texture.rs:126-128 | `size()` is exactly the texture's width and height. |
| Textures.LoadImage | src/lantern/texture.rs:61-66 | The upload passes exactly when the byte count divided by four equals the `u32` texel count. |
| Textures.LoadImageAcceptedLengths | src/lantern/texture.rs:62-66 | The accepted lengths for n texels are 4n to 4n + 3 bytes. |
| Textures.Resize | src/lantern/texture.rs:113-124 | Resizing to the current extent is a no-op. Otherwise the new extent takes effect and the name is kept. |
| Textures.ResizeIdempotent | src/lantern/texture.rs:113-124 | Resizing twice to the same extent equals resizing once. |
| Textures.FileName | src/lantern/texture.rs:104 | A file name is never empty, `.` or `..`, and contains no separator. |
| Textures.SegmentsAppend | src/lantern/texture.rs:104 | Appending `/name` to a path adds `name` as its last segment. |
| Textures.NamedAppend | src/lantern/texture.rs:104 | A final named segment stays the last named component. |
| Textures.FileNameOfComponent | src/lantern/texture.rs:104 | A bare component other than "", `.` and `..` is its own file name. |
| Textures.FileNameOfChild | src/lantern/texture.rs:104 | The file name of `dir/name` is `name` for any directory part. A trailing `..` has no file name. |
| Textures.Extension | src/lantern/texture.rs:91 | An extension exists exactly when the name has a `.` after its first character and is not `..`. The extension is the text after the last `.`. |
| Textures.FormatOf | src/lantern/texture.rs:91-102 | jpg and jpeg map to Jpeg, png maps to Png, and everything else (including a missing extension) maps to no format. The match is case-sensitive. |
| Textures.FromPath | src/lantern/texture.rs:85-111 | An unrecognised extension gives `None`. A failed open or decode gives `None`, not a panic. The call panics exactly when a decoded image's byte count divided by four differs from its `u32` texel count. A loaded image has the decoded extent and is labelled with the explicit label, or else the file name. |
| Textures.RejectedBeforeOpening | src/lantern/texture.rs:91-105 | With an unrecognised extension the outcome does not depend on the file loader: nothing is opened. |
| Textures.RecognisedHasLabel | src/lantern/texture.rs:104 | A path with a recognised extension always has a file name to fall back on. |
| Textures.FromPathLoadsWellFormed | src/lantern/texture.rs:104-110 | A decoder that returns four bytes per texel never trips the upload check. |
| Startup.ExpandChunk | src/lib.rs:44-49 | Chunk j of the widened buffer starts with RGB chunk j of the input. |
| Startup.ExpandAlpha | src/lib.rs:50 | Chunk j of the widened buffer ends with alpha 0xFF. |
| Startup.ExpandPadding | src/lib.rs:43-51 | Bytes beyond the last chunk pair the zip visits keep their initial zero. |
| Startup.StripAfterExpand | src/lib.rs:43-52 | Widening n RGB pixels into n RGBA slots and dropping the alpha gives back the input. |
| Startup.IconRgba | src/lib.rs:41-55 | A zero `u32` pixel count panics, because of the division. The RGB branch is taken exactly when `size / pixels == 3` by integer division. It produces `pixels * 4` bytes, with chunk j = input chunk j followed by 0xFF and zeros after. Any other buffer passes through unchanged. |
| Startup.RgbIconRoundTrip | src/lib.rs:41-52 | An RGB icon of exactly `width * height` pixels becomes four bytes per pixel carrying the same colours. |
| Startup.RgbaIconUnchanged | src/lib.rs:53-54 | An icon that already has four bytes per pixel is passed through unchanged. |
| Startup.HandleEvent | src/lib.rs:65-83 | A close request or an Escape press on the program's window sets exit code 0. Every other event, including any event for another window, leaves the control flow alone. |
| Startup.ExitIffQuit | src/lib.rs:65-83 | Over any event sequence, the program asks to exit exactly when one event was a quit request, and the exit code is always 0. |
| Startup.ForeignEventsIgnored | src/lib.rs:65-69 | Events that belong to other windows never end the program. |

## Left out

- GPU objects, device and queue calls, the texture upload itself and file I/O are not modelled. `Image` is reduced to (width, height, name). Opening and decoding a file is a `load` parameter of `Textures.FromPath`. The icon PNG decoder's output is given as `rgba` and `size`. Window creation, the logger and `Icon::from_rgba`'s own checks are left out.
- The float geometry is passed in as opaque parameters:
  - quaternion yaw/pitch rotation (`CameraOps.rotate`);
  - the z-flipped perspective projection, unprojection and view transform (`CameraOps.unproject`);
  - `renormalize_fast` (`FloatOps.normalOf`), `Reflection3` (`FloatOps.reflect`) and `f32::sqrt` (`FloatOps.sqrt`).

  Properties that need a true square root assume it only at the point used (`SqrtAt`).
- Rounding is not modelled: the model uses exact reals. In particular, `Cameras.TravelIsNetMove` regroups the six position updates, which holds over reals but not bit-for-bit in `f32`.
- Only one NaN case is modelled: the zero direction's 0/0, which never reaches a colour. The model cannot represent these other IEEE effects:
  - A sphere of radius 0 can still be hit, for example from (0,0,-2) along +Z at distance 2. The source's normal `(0,0,0) / 0.0` is then NaN (src/lantern/mod.rs:104). That adds black and makes the next ray NaN. The model treats it as an ordinary hit whose normal is `FloatOps.normalOf(Zero3, 0.0)`.
  - `f32` overflow to infinity, and the NaN that can follow from it.
  - Rounding near a tangent hit, which can flip the `discriminant < 0.0` test (src/lantern/mod.rs:135).
- `vec4_to_rgba` is referenced but its definition is not part of this model. The packing is the parameter `pack` of `Renderer.Update`.
- Renderer.CastSliceRoundTrip: assumes a little-endian target, because `cast_slice` follows the host byte order.
- The unit-length assertion in `reevaluate_rays` (src/camera.rs:226-229) is left out, because direction lengths come from the opaque unprojection.
- The view matrix `reevaluate_view`/`reevaluate_projection` is represented only through `unproject`'s arguments (lens, viewport, forward).
- rayon's parallel fill, `MaybeUninit` and `set_len` in `reevaluate_rays` are modelled as a sequence built by index.
- nalgebra's `Perspective3::new` and approx's `relative_eq!` are not part of this model. Their assertions are stated in `Cameras.ProjectionPanics`: the planes must not be superimposed and the aspect ratio must not be zero, up to the default tolerance `f32::EPSILON`. The `f32` rounding of `width as f32 / height as f32` is not modelled, so `Cameras.AspectPanics` uses the exact ratio.
- `Renderer.LightDirection` guards against a zero square root of 3 so that real division is total. The source's `normalize` has no such guard, and with a true square root the guard is never taken.
- Renderer.PerPixel: requires the pixel's slot to be inside the camera's ray list and below 2^32. In the source, a release build wraps the `u32` index `y * width + x`, and indexing the ray list out of bounds panics. `Renderer.Update`, the only caller, models the panic and never reaches a wrapped index: it panics first whenever `width * height` does not fit a `u32`.
- Renderer.Update: states which inputs panic, but not which slots were written before the panic.
- `u32` overflow in debug builds panics rather than wrapping. The model follows release builds.
- Paths are `/`-separated strings. Non-UTF-8 file names (`to_str` failing) and platform-specific separators are not modelled.
- Behaviours of the code the model keeps as they are:
  - the sky colour is black (src/lantern/mod.rs:76);
  - `Camera::resize` has no guard for a zero-area viewport (src/camera.rs:165-170). A zero height passes, because the infinite or NaN aspect ratio is never equal to zero, and leaves an empty ray buffer. A zero width with a positive height panics in the projection;
  - there is no accumulation buffer or sample counter;
  - `Camera::input` handles keyboard events even while the interface is hovered, and guards only cursor moves (`Cameras.KeyboardIgnoresHover`).
- The explicit label in `Image::from_path` does not rescue a path without a file name. `file_name()?` returns `None` before the label is consulted. The model follows the code.
- src/app.rs (GPU, egui panel, render passes), src/lantern/camera.rs (not compiled into the crate) and src/util.rs (random numbers) are not part of this model.

=== FILE: cameras.dfy ===
/** The first-person camera: its input state machine, movement step and the
    row-major buffer of per-pixel ray directions. Quaternion rotation and the
    projection/view transforms are float geometry passed in as `CameraOps`. */
module Cameras {
  import opened Numeric
  import opened Wrappers
  import opened Vector
  import opened Winit

  /** Projection parameters fixed at construction. */
  datatype Lens = Lens(verticalFov: real, near: real, far: real)

  /** `PhysicalPosition<f64>` of the cursor. */
  datatype Point2 = Point2(x: real, y: real)

  /** The six movement flags: W, A, S, D, Space, LShift. */
  type Flags = s: seq<bool> | |s| == 6 witness [false, false, false, false, false, false]

  /** Float geometry the model does not look inside. */
  datatype CameraOps = CameraOps(
    /** Rotate `forward` by a pitch about the local right axis, then a yaw about
        world up, and renormalize: (forward, pitch, yaw) -> forward. */
    rotate: (Vec3, real, real) -> Vec3,
    /** Unproject normalized device coordinates through the inverse projection of
        (lens, viewport), normalize, and rotate by the inverse view facing `forward`:
        (lens, viewport, forward, ndc x, ndc y) -> direction. */
    unproject: (Lens, Size, Vec3, real, real) -> Vec3)

  datatype Camera = Camera(
    lens: Lens,
    position: Vec3,
    forward: Vec3,
    rays: seq<Vec3>,
    lastMouse: Point2,
    viewport: Size,
    inputs: Flags,
    grabMouse: bool)

  const RotationSpeed: real := 0.7
  const MovementSpeed: real := 5.0
  /** Scale from cursor pixels to rotation input. */
  const MouseScale: real := 0.002
  const MaxTimeStep: real := 1.0 / 60.0
  const Up: Vec3 := Vec3(0.0, 1.0, 0.0)

  /** The ray buffer's length: `width * height` as a `u32` product. */
  function RayCount(viewport: Size): U32
  {
    WrappingMul(viewport.width, viewport.height)
  }

  /** Normalized device coordinate of a pixel coordinate: `2 * c / extent - 1`. */
  function Ndc(coord: nat, extent: nat): (r: real)
    requires coord < extent
    ensures -1.0 <= r < 1.0
  {
    (coord as real / extent as real) * 2.0 - 1.0
  }

  lemma PixelOfIndex(index: nat, width: nat, height: nat)
    requires index < width * height
    ensures width > 0 && height > 0
    ensures index % width < width && index / width < height
    ensures (index / width) * width + index % width == index
  {
    assert width > 0 && height > 0;
    assert (index / width) * width <= index;
    MulLessCancel(index / width, height, width);
  }

  lemma MulLessCancel(q: nat, h: nat, w: nat)
    requires w > 0 && q * w < h * w
    ensures q < h
  {
    MulMonotone(q - h + 1, w);
    assert (q - h + 1) * w == q * w - h * w + w;
  }

  /** `reevaluate_rays`: one direction per buffer slot, slot `i` standing for
      pixel (i % width, i / width). */
  function RayDirections(lens: Lens, viewport: Size, forward: Vec3, ops: CameraOps): (rays: seq<Vec3>)
    ensures |rays| == RayCount(viewport)
  {
    seq(RayCount(viewport), i requires 0 <= i < RayCount(viewport) =>
      PixelOfIndex(i, viewport.width, viewport.height);
      ops.unproject(lens, viewport, forward,
                    Ndc(i % viewport.width, viewport.width),
                    Ndc(i / viewport.width, viewport.height)))
  }

  /** Slot `y * width + x` holds the direction for pixel (x, y), so the buffer
      covers every pixel of the viewport; every slot index decomposes back into
      a pixel inside the viewport. */
  lemma RayAtPixel(lens: Lens, viewport: Size, forward: Vec3, ops: CameraOps, x: nat, y: nat)
    requires x < viewport.width && y < viewport.height
    requires viewport.width * viewport.height < U32_LIMIT
    ensures y * viewport.width + x < |RayDirections(lens, viewport, forward, ops)|
    ensures RayDirections(lens, viewport, forward, ops)[y * viewport.width + x]
            == ops.unproject(lens, viewport, forward, Ndc(x, viewport.width), Ndc(y, viewport.height))
  {
    var w, h := viewport.width, viewport.height;
    var i := y * w + x;
    RowMajorInBounds(x, y, w, h);
    PixelOfIndex(i, w, h);
    assert i / w == y && i % w == x by {
      DivModUnique(i, w, y, x);
    }
  }

  lemma DivModUnique(i: nat, w: nat, y: nat, x: nat)
    requires x < w && i == y * w + x
    ensures i / w == y && i % w == x
  {
    var q, r := i / w, i % w;
    assert i == q * w + r && 0 <= r < w;
    assert (q - y) * w == x - r;
    MulMonotone(q - y, w);
  }

  /** A camera whose ray buffer matches its lens, viewport and orientation. */
  predicate Valid(cam: Camera, ops: CameraOps)
  {
    cam.rays == RayDirections(cam.lens, cam.viewport, cam.forward, ops)
  }

  /** `f32::EPSILON`, 2^-23: the default tolerance of `approx`'s `relative_eq!`. */
  const F32Epsilon: real := 1.0 / 8388608.0

  function Abs(a: real): real
  {
    if a < 0.0 then -a else a
  }

  /** `relative_eq!(a, b)` with its default tolerances: the difference is at
      most `F32Epsilon`, or at most `F32Epsilon` times the larger magnitude. */
  predicate RelativeEq(a: real, b: real)
  {
    var d := Abs(a - b);
    d <= F32Epsilon || d <= F32Epsilon * Max(Abs(a), Abs(b))
  }

  /** The assertions of nalgebra's `Perspective3::new`, which `new` and
      `resize` call with the aspect ratio `width / height`: the near and far
      planes must not be superimposed, and the aspect ratio must not be zero,
      both up to `relative_eq!`. A zero height makes the aspect ratio infinite
      or NaN, which is never equal to zero, so only a positive height can trip
      the second assertion. The planes are compared as `zfar - znear`
      against zero. */
  predicate ProjectionPanics(lens: Lens, viewport: Size)
  {
    || RelativeEq(lens.far - lens.near, 0.0)
    || (viewport.height > 0 && RelativeEq(viewport.width as real / viewport.height as real, 0.0))
  }

  /** With distinct planes the projection panics exactly for a viewport with a
      positive height at least 2^23 times its width; in particular for zero
      width and positive height, and never for a zero height. */
  lemma AspectPanics(lens: Lens, viewport: Size)
    requires !RelativeEq(lens.far - lens.near, 0.0)
    ensures ProjectionPanics(lens, viewport) <==>
              viewport.height > 0 && 8388608 * viewport.width <= viewport.height
  {
    if viewport.height > 0 {
      AspectNearZero(viewport.width as real, viewport.height as real);
    }
  }

  /** A non-negative aspect ratio `w / h` counts as zero under `relative_eq!`
      exactly when `h` is at least 2^23 times `w`. */
  lemma AspectNearZero(w: real, h: real)
    requires w >= 0.0 && h > 0.0
    ensures RelativeEq(w / h, 0.0) <==> 8388608.0 * w <= h
  {
    var aspect := w / h;
    assert aspect * h == w;
    ScaleLe(0.0, aspect, h);
    RelativeEqZero(aspect);
    ScaleLe(aspect, F32Epsilon, h);
    var bound := F32Epsilon * h;
    ScaleLe(w, bound, 8388608.0);
    assert bound * 8388608.0 == h;
  }

  /** A non-negative `x` is `relative_eq!` to zero exactly when `x <= F32Epsilon`. */
  lemma RelativeEqZero(x: real)
    requires x >= 0.0
    ensures RelativeEq(x, 0.0) <==> x <= F32Epsilon
  {
    assert Abs(x - 0.0) == x && Max(Abs(x), Abs(0.0)) == x;
    if x > F32Epsilon {
      assert F32Epsilon * x < x;
    }
  }

  /** For a positive `h`, `a <= b` exactly when `a * h <= b * h`. */
  lemma ScaleLe(a: real, b: real, h: real)
    requires h > 0.0
    ensures a <= b <==> a * h <= b * h
  {
    if a > b {
      assert (a - b) * h > 0.0;
    }
  }

  /** `Camera::new`: at (0, 0, -1) facing +Z, no input held, the cursor at the
      origin, rays computed for the viewport; it panics when the projection
      does (`ProjectionPanics`). */
  function New(lens: Lens, viewport: Size, ops: CameraOps): (r: Result<Camera>)
    ensures r.Panic? <==> ProjectionPanics(lens, viewport)
    ensures viewport.width == 0 && viewport.height > 0 ==> r.Panic?
    ensures r.Ok? ==>
      var cam := r.value;
      && cam.position == Vec3(0.0, 0.0, -1.0) && cam.forward == Vec3(0.0, 0.0, 1.0)
      && (forall i :: 0 <= i < 6 ==> !cam.inputs[i])
      && !cam.grabMouse && cam.lastMouse == Point2(0.0, 0.0)
      && cam.viewport == viewport && cam.lens == lens
      && Valid(cam, ops) && |cam.rays| == RayCount(viewport)
  {
    if ProjectionPanics(lens, viewport) then Panic("The aspect ratio must not be zero.")
    else
      var forward := Vec3(0.0, 0.0, 1.0);
      Ok(Camera(lens, Vec3(0.0, 0.0, -1.0), forward, RayDirections(lens, viewport, forward, ops),
                Point2(0.0, 0.0), viewport, [false, false, false, false, false, false], false))
  }

  /** The movement flag a key drives: W, A, S, D, Space, LShift in that order. */
  function KeySlot(key: Key): (r: Option<nat>)
    ensures r.Some? ==> r.value < 6
    ensures r.Some? <==> key in {W, A, S, D, Space, LShift}
  {
    match key
    case W => Some(0)
    case A => Some(1)
    case S => Some(2)
    case D => Some(3)
    case Space => Some(4)
    case LShift => Some(5)
    case _ => None
  }

  /** Distinct movement keys drive distinct flags. */
  lemma KeySlotInjective(k1: Key, k2: Key)
    requires KeySlot(k1).Some? && KeySlot(k1) == KeySlot(k2)
    ensures k1 == k2
  {
  }

  /** The camera after an event, and whether the camera consumed it. */
  datatype Handled = Handled(camera: Camera, consumed: bool)

  /** Whether `Camera::input` consumes an event. */
  predicate Consumes(event: WindowEvent, hovering: bool)
  {
    || (event.CursorMoved? && !hovering)
    || (event.KeyboardInput? && event.key.Some?
        && (KeySlot(event.key.value).Some? || (event.key.value == C && event.state == Pressed)))
  }

  /** `Camera::input`. */
  function Input(cam: Camera, event: WindowEvent, hovering: bool, ops: CameraOps): (r: Handled)
    ensures r.consumed <==> Consumes(event, hovering)
    ensures !r.consumed ==> r.camera == cam
    ensures r.camera.position == cam.position && r.camera.lens == cam.lens
    ensures r.camera.viewport == cam.viewport
    ensures Valid(cam, ops) ==> Valid(r.camera, ops)
    ensures event.KeyboardInput? && event.key.Some? && KeySlot(event.key.value).Some? ==>
      var slot := KeySlot(event.key.value).value;
      && r.camera.inputs[slot] == (event.state == Pressed)
      && r.camera == cam.(inputs := cam.inputs[slot := event.state == Pressed])
    ensures event == KeyboardInput(Pressed, Some(C)) ==> r.camera == cam.(grabMouse := !cam.grabMouse)
    ensures event.CursorMoved? && !hovering ==>
      var forward := ops.rotate(cam.forward,
                                (event.y - cam.lastMouse.y) * MouseScale * RotationSpeed,
                                (event.x - cam.lastMouse.x) * MouseScale * RotationSpeed);
      && Valid(r.camera, ops)
      && r.camera == cam.(lastMouse := Point2(event.x, event.y), forward := forward,
                          rays := RayDirections(cam.lens, cam.viewport, forward, ops))
  {
    match event
    case CursorMoved(px, py) =>
      if hovering then Handled(cam, false)
      else
        var dx := (px - cam.lastMouse.x) * MouseScale;
        var dy := (py - cam.lastMouse.y) * MouseScale;
        var forward := ops.rotate(cam.forward, dy * RotationSpeed, dx * RotationSpeed);
        Handled(cam.(lastMouse := Point2(px, py), forward := forward,
                     rays := RayDirections(cam.lens, cam.viewport, forward, ops)), true)
    case KeyboardInput(state, Some(key)) =>
      var isPress := state == Pressed;
      (match KeySlot(key)
       case Some(slot) => Handled(cam.(inputs := cam.inputs[slot := isPress]), true)
       case None =>
         if key == C && isPress then Handled(cam.(grabMouse := !cam.grabMouse), true)
         else Handled(cam, false))
    case _ => Handled(cam, false)
  }

  /** Pressing C twice gives back the camera it started from. */
  lemma GrabToggleTwice(cam: Camera, hovering: bool, ops: CameraOps)
    ensures var press := KeyboardInput(Pressed, Some(C));
      Input(Input(cam, press, hovering, ops).camera, press, hovering, ops).camera == cam
  {
  }

  /** The hover flag guards cursor moves only: keyboard events are handled the
      same whether or not the interface is hovered. */
  lemma KeyboardIgnoresHover(cam: Camera, state: ElementState, key: Option<Key>, ops: CameraOps)
    ensures Input(cam, KeyboardInput(state, key), true, ops) == Input(cam, KeyboardInput(state, key), false, ops)
  {
  }

  /** A movement flag reflects the last press or release of its key, whatever came before. */
  lemma FlagFollowsLastEvent(cam: Camera, key: Key, first: ElementState, last: ElementState,
                             hovering: bool, ops: CameraOps)
    requires KeySlot(key).Some?
    ensures var c1 := Input(cam, KeyboardInput(first, Some(key)), hovering, ops).camera;
      Input(c1, KeyboardInput(last, Some(key)), hovering, ops).camera
        == Input(cam, KeyboardInput(last, Some(key)), hovering, ops).camera
  {
    var slot := KeySlot(key).value;
    var c1 := Input(cam, KeyboardInput(first, Some(key)), hovering, ops).camera;
    assert c1.inputs[slot := last == Pressed] == cam.inputs[slot := last == Pressed];
  }

  /** The clamped step of `update`: `frame_time / 1000` seconds, capped at 1/60. */
  function TimeStep(frameTime: nat): (r: real)
    ensures 0.0 <= r <= MaxTimeStep
    ensures frameTime as real / 1000.0 <= MaxTimeStep ==> r == frameTime as real / 1000.0
    ensures frameTime as real / 1000.0 >= MaxTimeStep ==> r == MaxTimeStep
  {
    var seconds := frameTime as real / 1000.0;
    if seconds <= MaxTimeStep then seconds else MaxTimeStep
  }

  /** World up crossed with the forward direction. */
  function Right(forward: Vec3): Vec3
  {
    Cross(Up, forward)
  }

  /** `v` when its key is held, nothing otherwise. */
  function Along(held: bool, v: Vec3): Vec3
  {
    if held then v else Zero3
  }

  /** The sum of unit moves the flags `i` ask for along the axes `f`, `r`, `u`:
      forward minus back, right minus left, up minus down. */
  function Net(f: Vec3, r: Vec3, u: Vec3, i: Flags): Vec3
  {
    var forward, left, back, right := Along(i[0], f), Along(i[1], r), Along(i[2], f), Along(i[3], r);
    var up, down := Along(i[4], u), Along(i[5], u);
    Add(Add(Sub(forward, back), Sub(right, left)), Sub(up, down))
  }

  /** The camera's net direction of travel for its held keys. */
  function NetDirection(cam: Camera): Vec3
  {
    Net(cam.forward, Right(cam.forward), Up, cam.inputs)
  }

  /** One `if self.inputs[k] { self.position += delta }` of `update`, or `-=`
      when `add` is false. */
  function Move(p: Vec3, held: bool, delta: Vec3, add: bool): Vec3
  {
    if !held then p else if add then Add(p, delta) else Sub(p, delta)
  }

  /** The six conditional moves of `update` in source order, by the already
      scaled axes `fwd`, `right`, `up`. */
  function Steps(p: Vec3, fwd: Vec3, right: Vec3, up: Vec3, i: Flags): Vec3
  {
    var p := Move(p, i[0], fwd, true);
    var p := Move(p, i[1], right, false);
    var p := Move(p, i[2], fwd, false);
    var p := Move(p, i[3], right, true);
    var p := Move(p, i[4], up, true);
    Move(p, i[5], up, false)
  }

  /** The position after `update`'s moves, each `step` long along its axis. */
  function Travel(cam: Camera, step: real): Vec3
  {
    var f := cam.forward;
    Steps(cam.position, Scale(f, step), Scale(Right(f), step), Scale(Up, step), cam.inputs)
  }

  /** The camera after `update`, and whether it moved. */
  datatype Moved = Moved(camera: Camera, moved: bool)

  /** `Camera::update`: the clamped frame time, in seconds, times the movement
      speed is how far each held key moves the camera. */
  function Update(cam: Camera, frameTime: nat, ops: CameraOps): (r: Moved)
    ensures r.moved <==> true in cam.inputs
    ensures !r.moved ==> r.camera == cam
    ensures Valid(cam, ops) ==> Valid(r.camera, ops)
    ensures r.camera.position == Add(cam.position, Scale(NetDirection(cam), MovementSpeed * TimeStep(frameTime)))
  {
    Advance(cam, MovementSpeed * TimeStep(frameTime), ops)
  }

  /** The body of `update` for a given step length: move, and recompute the
      rays only when some key is held. */
  function Advance(cam: Camera, step: real, ops: CameraOps): (r: Moved)
    ensures r.moved <==> true in cam.inputs
    ensures !r.moved ==> r.camera == cam
    ensures r.camera == cam.(position := r.camera.position, rays := r.camera.rays)
    ensures r.camera.position == Add(cam.position, Scale(NetDirection(cam), step))
    ensures Valid(cam, ops) ==> Valid(r.camera, ops)
  {
    var i := cam.inputs;
    AnyFlagHeld(i);
    TravelIsNetMove(cam, step);
    if i[0] || i[1] || i[2] || i[3] || i[4] || i[5] then
      Moved(cam.(position := Travel(cam, step), rays := RayDirections(cam.lens, cam.viewport, cam.forward, ops)), true)
    else
      IdleStaysPut(cam, step);
      Moved(cam, false)
  }

  lemma IdleStaysPut(cam: Camera, step: real)
    requires !(cam.inputs[0] || cam.inputs[1] || cam.inputs[2] || cam.inputs[3] || cam.inputs[4] || cam.inputs[5])
    ensures Travel(cam, step) == cam.position
  {
  }

  lemma AnyFlagHeld(i: Flags)
    ensures (i[0] || i[1] || i[2] || i[3] || i[4] || i[5]) <==> true in i
  {
    forall k | 0 <= k < 6 && i[k]
      ensures i[0] || i[1] || i[2] || i[3] || i[4] || i[5]
    {
      assert k == 0 || k == 1 || k == 2 || k == 3 || k == 4 || k == 5;
    }
  }

  /** The six conditional moves of `update` add up to one move along `NetDirection`:
      the order of the moves does not matter. */
  lemma TravelIsNetMove(cam: Camera, step: real)
    ensures Travel(cam, step) == Add(cam.position, Scale(NetDirection(cam), step))
  {
    StepsAreNet(cam.position, cam.forward, Right(cam.forward), Up, cam.inputs, step);
  }

  lemma StepsAreNet(p: Vec3, f: Vec3, r: Vec3, u: Vec3, i: Flags, step: real)
    ensures Steps(p, Scale(f, step), Scale(r, step), Scale(u, step), i) == Add(p, Scale(Net(f, r, u, i), step))
  {
    var fwd, right, up := Scale(f, step), Scale(r, step), Scale(u, step);
    var a0, a1, a2 := Along(i[0], fwd), Along(i[1], right), Along(i[2], fwd);
    var a3, a4, a5 := Along(i[3], right), Along(i[4], up), Along(i[5], up);
    var q0 := Move(p, i[0], fwd, true);
    var q1 := Move(q0, i[1], right, false);
    var q2 := Move(q1, i[2], fwd, false);
    var q3 := Move(q2, i[3], right, true);
    var q4 := Move(q3, i[4], up, true);
    MoveAlong(p, i[0], fwd);
    MoveAlong(q0, i[1], right);
    MoveAlong(q1, i[2], fwd);
    MoveAlong(q2, i[3], right);
    MoveAlong(q3, i[4], up);
    MoveAlong(q4, i[5], up);
    assert Steps(p, fwd, right, up, i) == Sub(Add(Add(Sub(Sub(Add(p, a0), a1), a2), a3), a4), a5);
    Regroup(p, a0, a1, a2, a3, a4, a5);
    ScaleAlong(i[0], f, step);
    ScaleAlong(i[1], r, step);
    ScaleAlong(i[2], f, step);
    ScaleAlong(i[3], r, step);
    ScaleAlong(i[4], u, step);
    ScaleAlong(i[5], u, step);
    ScaleNet(Along(i[0], f), Along(i[2], f), Along(i[3], r), Along(i[1], r),
             Along(i[4], u), Along(i[5], u), step);
  }

  /** Vector addition is associative and commutative enough to gather the six moves. */
  lemma Regroup(p: Vec3, a0: Vec3, a1: Vec3, a2: Vec3, a3: Vec3, a4: Vec3, a5: Vec3)
    ensures Sub(Add(Add(Sub(Sub(Add(p, a0), a1), a2), a3), a4), a5)
         == Add(p, Add(Add(Sub(a0, a2), Sub(a3, a1)), Sub(a4, a5)))
  {
  }

  /** A conditional move adds or subtracts the held key's axis. */
  lemma MoveAlong(p: Vec3, held: bool, delta: Vec3)
    ensures Move(p, held, delta, true) == Add(p, Along(held, delta))
    ensures Move(p, held, delta, false) == Sub(p, Along(held, delta))
  {
  }

  /** Scaling commutes with picking a held key's axis. */
  lemma ScaleAlong(held: bool, v: Vec3, k: real)
    ensures Scale(Along(held, v), k) == Along(held, Scale(v, k))
  {
  }

  /** Scaling distributes over the sums and differences of `NetDirection`. */
  lemma ScaleNet(a: Vec3, b: Vec3, c: Vec3, d: Vec3, e: Vec3, g: Vec3, k: real)
    ensures Scale(Add(Add(Sub(a, b), Sub(c, d)), Sub(e, g)), k)
         == Add(Add(Sub(Scale(a, k), Scale(b, k)), Sub(Scale(c, k), Scale(d, k))), Sub(Scale(e, k), Scale(g, k)))
  {
    ScaleAdd(Add(Sub(a, b), Sub(c, d)), Sub(e, g), k);
    ScaleAdd(Sub(a, b), Sub(c, d), k);
    ScaleSub(a, b, k);
    ScaleSub(c, d, k);
    ScaleSub(e, g, k);
  }

  /** Holding forward and back together reports a move that goes nowhere. */
  lemma OppositeKeysCancel(cam: Camera, frameTime: nat, ops: CameraOps)
    requires cam.inputs == [true, false, true, false, false, false]
    ensures Update(cam, frameTime, ops).moved
    ensures Update(cam, frameTime, ops).camera.position == cam.position
  {
    var step := MovementSpeed * TimeStep(frameTime);
    ForwardAndBackCancel(cam.forward, Right(cam.forward), Up, cam.inputs);
    ScaleZero(step);
    AddZero(cam.position);
    assert true in cam.inputs by {
      assert cam.inputs[0];
    }
  }

  lemma ForwardAndBackCancel(f: Vec3, r: Vec3, u: Vec3, i: Flags)
    requires i == [true, false, true, false, false, false]
    ensures Net(f, r, u, i) == Zero3
  {
  }

  /** `Camera::resize`: adopt the viewport, rebuild the projection, which
      panics as in `new`, and rebuild every ray. There is no guard for a
      zero-area viewport: a zero height passes the projection and leaves an
      empty ray buffer. */
  function Resize(cam: Camera, viewport: Size, ops: CameraOps): (r: Result<Camera>)
    ensures r.Panic? <==> ProjectionPanics(cam.lens, viewport)
    ensures viewport.width == 0 && viewport.height > 0 ==> r.Panic?
    ensures r.Ok? ==>
      && r.value.viewport == viewport && Valid(r.value, ops)
      && |r.value.rays| == RayCount(viewport)
      && r.value == cam.(viewport := viewport, rays := r.value.rays)
    ensures r.Ok? && (viewport.width == 0 || viewport.height == 0) ==> r.value.rays == []
  {
    if ProjectionPanics(cam.lens, viewport) then Panic("The aspect ratio must not be zero.")
    else Ok(cam.(viewport := viewport, rays := RayDirections(cam.lens, viewport, cam.forward, ops)))
  }

  /** Resizing a consistent camera to its own viewport changes nothing, unless
      its projection panics. */
  lemma ResizeSameSize(cam: Camera, ops: CameraOps)
    requires Valid(cam, ops)
    ensures var r := Resize(cam, cam.viewport, ops);
      (r.Ok? <==> !ProjectionPanics(cam.lens, cam.viewport)) && (r.Ok? ==> r.value == cam)
  {
  }

  /** A camera that `new` built survives a resize to its own viewport unchanged. */
  lemma ResizeAfterNew(lens: Lens, viewport: Size, ops: CameraOps)
    requires New(lens, viewport, ops).Ok?
    ensures Resize(New(lens, viewport, ops).value, viewport, ops) == New(lens, viewport, ops)
  {
  }
}

=== FILE: intersection.dfy ===
/** Ray/sphere intersection and closest-hit selection (`trace_ray` and
    `closest_hit`). Scalars are exact reals; the one IEEE effect the selection
    depends on, 0/0 = NaN for a zero direction, is kept as `NotANumber`. */
module Intersection {
  import opened Vector
  import opened SceneData
  import opened Wrappers

  /** Float operations whose bit-level behaviour is not modelled. */
  datatype FloatOps = FloatOps(
    /** `f32::sqrt`. */
    sqrt: real -> real,
    /** `closest_hit`'s normal: local hit point divided by the radius, then `renormalize_fast`. */
    normalOf: (Vec3, real) -> Vec3,
    /** `Reflection3::new(normal, 0.0).reflect(direction)`. */
    reflect: (Vec3, Vec3) -> Vec3)

  /** `sqrt` behaves as a square root at `x`. */
  predicate SqrtAt(sqrt: real -> real, x: real)
  {
    sqrt(x) >= 0.0 && sqrt(x) * sqrt(x) == x
  }

  /** The near root of one sphere: rejected, a distance, or NaN. */
  datatype Root = Rejected | At(t: real) | NotANumber

  predicate Accepted(r: Root)
  {
    !r.Rejected?
  }

  /** Ray origin in the sphere's own frame. */
  function LocalOrigin(ray: Ray, sphere: Sphere): Vec3
  {
    Sub(ray.origin, sphere.position)
  }

  /** The coefficients a, b, c of the quadratic |o + t d|^2 = r^2. */
  function QuadA(ray: Ray): real
  {
    Dot(ray.direction, ray.direction)
  }

  function QuadB(ray: Ray, sphere: Sphere): real
  {
    2.0 * Dot(LocalOrigin(ray, sphere), ray.direction)
  }

  function QuadC(ray: Ray, sphere: Sphere): real
  {
    Dot(LocalOrigin(ray, sphere), LocalOrigin(ray, sphere)) - sphere.radius * sphere.radius
  }

  function Discriminant(ray: Ray, sphere: Sphere): real
  {
    QuadB(ray, sphere) * QuadB(ray, sphere) - 4.0 * QuadA(ray) * QuadC(ray, sphere)
  }

  lemma SquareNonNegative(v: real)
    ensures v * v >= 0.0
  {
    if v < 0.0 {
      assert (-v) * (-v) == v * v;
    }
  }

  lemma DotSelfNonNegative(a: Vec3)
    ensures Dot(a, a) >= 0.0
  {
    SquareNonNegative(a.x);
    SquareNonNegative(a.y);
    SquareNonNegative(a.z);
  }

  /** The per-sphere test of `trace_ray`: skip on a negative discriminant, skip on
      a negative near root. For a zero direction the source divides 0 by 0; the
      resulting NaN passes the `< 0.0` test. */
  function NearRoot(ray: Ray, sphere: Sphere, sqrt: real -> real): (r: Root)
    ensures r.NotANumber? <==> QuadA(ray) == 0.0
    ensures r.At? ==> r.t >= 0.0
  {
    var disc := Discriminant(ray, sphere);
    if disc < 0.0 then
      assert QuadA(ray) != 0.0 by {
        if QuadA(ray) == 0.0 { SquareNonNegative(QuadB(ray, sphere)); }
      }
      Rejected
    else if QuadA(ray) == 0.0 then NotANumber
    else
      var t := (-QuadB(ray, sphere) - sqrt(disc)) / (2.0 * QuadA(ray));
      if t < 0.0 then Rejected else At(t)
  }

  /** An accepted distance is a real solution: the hit point lies on the sphere. */
  lemma NearRootOnSphere(ray: Ray, sphere: Sphere, sqrt: real -> real)
    requires SqrtAt(sqrt, Discriminant(ray, sphere))
    requires NearRoot(ray, sphere, sqrt).At?
    ensures var p := Add(LocalOrigin(ray, sphere), Scale(ray.direction, NearRoot(ray, sphere, sqrt).t));
      Dot(p, p) == sphere.radius * sphere.radius
  {
    var a, b, c := QuadA(ray), QuadB(ray, sphere), QuadC(ray, sphere);
    var s := sqrt(Discriminant(ray, sphere));
    var t := NearRoot(ray, sphere, sqrt).t;
    var o, d := LocalOrigin(ray, sphere), ray.direction;
    assert t == (-b - s) / (2.0 * a);
    assert t * (2.0 * a) == -b - s;
    assert s * s == b * b - 4.0 * a * c;
    calc {
      4.0 * a * (a * t * t + b * t + c);
      (t * (2.0 * a)) * (t * (2.0 * a)) + 2.0 * b * (t * (2.0 * a)) + 4.0 * a * c;
      (-b - s) * (-b - s) + 2.0 * b * (-b - s) + 4.0 * a * c;
      s * s - b * b + 4.0 * a * c;
      0.0;
    }
    assert a * t * t + b * t + c == 0.0;
    var p := Add(o, Scale(d, t));
    assert Dot(p, p) == Dot(o, o) + b * t + a * t * t;
  }

  /** A ray starting strictly inside a sphere gets no hit from it: the near root
      lies behind the origin. */
  lemma InsideOriginRejected(ray: Ray, sphere: Sphere, sqrt: real -> real)
    requires QuadA(ray) != 0.0
    requires Dot(LocalOrigin(ray, sphere), LocalOrigin(ray, sphere)) < sphere.radius * sphere.radius
    requires SqrtAt(sqrt, Discriminant(ray, sphere))
    ensures NearRoot(ray, sphere, sqrt).Rejected?
  {
    var a, b, c := QuadA(ray), QuadB(ray, sphere), QuadC(ray, sphere);
    var disc := Discriminant(ray, sphere);
    var s := sqrt(disc);
    DotSelfNonNegative(ray.direction);
    assert a > 0.0 && c < 0.0;
    assert a * c < 0.0;
    SquareNonNegative(b);
    assert disc > b * b;
    assert s * s > b * b;
    RootDominates(s, b);
    assert -b - s < 0.0;
    assert (-b - s) / (2.0 * a) < 0.0;
  }

  lemma RootDominates(s: real, b: real)
    requires s >= 0.0 && s * s > b * b
    ensures s > b && s > -b
  {
  }

  lemma UnitRoot(s: real)
    requires s >= 0.0 && s * s == 1.0
    ensures s == 1.0
  {
    if s > 1.0 {
      SquareAbove(s);
    } else if s < 1.0 {
      SquareBelow(s);
    }
  }

  lemma SquareAbove(s: real)
    requires s > 1.0
    ensures s * s > 1.0
  {
    assert s * (s - 1.0) > 0.0;
  }

  lemma SquareBelow(s: real)
    requires 0.0 <= s < 1.0
    ensures s * s < 1.0
  {
    var k := s * (1.0 - s);
    ProductNonNegativeReal(s, 1.0 - s);
    assert s * s == s - k;
    assert s * s <= s;
  }

  lemma ProductNonNegativeReal(a: real, b: real)
    requires a >= 0.0 && b >= 0.0
    ensures a * b >= 0.0
  {
  }

  /** The canonical front hit: from (0,0,-2) along +Z onto the sphere of radius
      0.5 at the origin, the distance is 1.5. */
  lemma FrontHitExample(sqrt: real -> real)
    requires SqrtAt(sqrt, 1.0)
    ensures NearRoot(Ray(Vec3(0.0, 0.0, -2.0), Vec3(0.0, 0.0, 1.0)),
                     Sphere(Zero3, 0.5, Vec3(1.0, 1.0, 1.0)), sqrt) == At(1.5)
  {
    UnitRoot(sqrt(1.0));
    FrontHitWithUnitRoot(Ray(Vec3(0.0, 0.0, -2.0), Vec3(0.0, 0.0, 1.0)),
                         Sphere(Zero3, 0.5, Vec3(1.0, 1.0, 1.0)), sqrt);
  }

  /** The front-hit geometry, field by field. */
  predicate FrontHitSetup(ray: Ray, sphere: Sphere)
  {
    && ray.origin == Vec3(0.0, 0.0, -2.0) && ray.direction == Vec3(0.0, 0.0, 1.0)
    && sphere.position == Zero3 && sphere.radius == 0.5
  }

  lemma FrontHitWithUnitRoot(ray: Ray, sphere: Sphere, sqrt: real -> real)
    requires FrontHitSetup(ray, sphere) && sqrt(1.0) == 1.0
    ensures NearRoot(ray, sphere, sqrt) == At(1.5)
  {
    FrontHitQuadratic(ray, sphere);
    NearRootAccepted(ray, sphere, sqrt, -4.0, 1.0, 1.0, 1.5);
  }

  /** For a unit direction the per-sphere test accepts distance `t` when the
      discriminant is not negative and `t` is the non-negative near root. */
  lemma NearRootAccepted(ray: Ray, sphere: Sphere, sqrt: real -> real, b: real, disc: real, s: real, t: real)
    requires QuadA(ray) == 1.0 && QuadB(ray, sphere) == b && Discriminant(ray, sphere) == disc
    requires disc >= 0.0 && sqrt(disc) == s
    requires t * 2.0 == -b - s && t >= 0.0
    ensures NearRoot(ray, sphere, sqrt) == At(t)
  {
  }

  lemma FrontHitQuadratic(ray: Ray, sphere: Sphere)
    requires FrontHitSetup(ray, sphere)
    ensures QuadA(ray) == 1.0 && QuadB(ray, sphere) == -4.0 && Discriminant(ray, sphere) == 1.0
  {
    assert LocalOrigin(ray, sphere) == Vec3(0.0, 0.0, -2.0);
    assert QuadC(ray, sphere) == 3.75;
  }

  /** The selection state after a prefix of the sphere list: the kept sphere's
      index and distance. */
  datatype Choice = Choice(index: nat, distance: Root)

  /** The replacement test `previous_distance > distance`; false if either is NaN. */
  predicate Replaces(previous: Root, candidate: Root)
  {
    previous.At? && candidate.At? && previous.t > candidate.t
  }

  /** The number of leading rejected roots: the position of the first accepted
      one, or the length when none is accepted. */
  function LeadingRejected(roots: seq<Root>): (r: nat)
    ensures r <= |roots|
    ensures forall k :: 0 <= k < r ==> roots[k].Rejected?
    ensures r < |roots| ==> Accepted(roots[r])
    decreases |roots|
  {
    if |roots| == 0 then 0
    else
      var i := |roots| - 1;
      var p := LeadingRejected(roots[..i]);
      assert forall k :: 0 <= k < i ==> roots[..i][k] == roots[k];
      if p < i then p else if roots[i].Rejected? then i + 1 else i
  }

  /** What the selection keeps, stated without the loop: an accepted sphere that,
      when its distance is NaN, is the first accepted one; and otherwise, when the
      first accepted sphere has a distance, is strictly nearer than every earlier
      sphere with a distance and no farther than every later one. */
  predicate IsClosest(roots: seq<Root>, c: Choice)
  {
    && c.index < |roots|
    && roots[c.index] == c.distance
    && Accepted(c.distance)
    && (c.distance.NotANumber? ==> c.index == LeadingRejected(roots))
    && (c.distance.At? ==>
          && roots[LeadingRejected(roots)].At?
          && (forall k :: 0 <= k < c.index && roots[k].At? ==> roots[k].t > c.distance.t)
          && (forall k :: c.index < k < |roots| && roots[k].At? ==> c.distance.t <= roots[k].t))
  }

  /** The scan of `trace_ray` over the near roots, in list order. */
  function Select(roots: seq<Root>): (r: Option<Choice>)
    ensures r.None? <==> forall k :: 0 <= k < |roots| ==> roots[k].Rejected?
    ensures r.Some? ==> IsClosest(roots, r.value)
    decreases |roots|
  {
    if |roots| == 0 then None
    else
      var i := |roots| - 1;
      var prefix := roots[..i];
      var previous := Select(prefix);
      var candidate := roots[i];
      assert forall k :: 0 <= k < i ==> prefix[k] == roots[k];
      assert LeadingRejected(prefix) < i ==> LeadingRejected(roots) == LeadingRejected(prefix);
      if candidate.Rejected? then previous
      else
        match previous
        case None =>
          assert LeadingRejected(roots) == i;
          Some(Choice(i, candidate))
        case Some(p) =>
          assert LeadingRejected(prefix) <= p.index;
          if Replaces(p.distance, candidate) then Some(Choice(i, candidate)) else previous
  }

  /** At most one choice fits `IsClosest`, so it pins down the selection. */
  lemma ClosestIsUnique(roots: seq<Root>, c1: Choice, c2: Choice)
    requires IsClosest(roots, c1) && IsClosest(roots, c2)
    ensures c1 == c2
  {
    assert LeadingRejected(roots) <= c1.index && LeadingRejected(roots) <= c2.index;
  }

  /** The near roots of all spheres, in list order. */
  function Roots(scene: Scene, ray: Ray, sqrt: real -> real): (rs: seq<Root>)
    ensures |rs| == |scene.spheres|
    ensures forall k :: 0 <= k < |rs| ==> rs[k] == NearRoot(ray, scene.spheres[k], sqrt)
  {
    seq(|scene.spheres|, k requires 0 <= k < |scene.spheres| => NearRoot(ray, scene.spheres[k], sqrt))
  }

  /** `HitPayload`: distance, world position, surface normal, and the hit sphere
      (the source holds a reference to it; `index` is its place in the list). */
  datatype HitPayload = HitPayload(distance: real, position: Vec3, normal: Vec3, index: nat, sphere: Sphere)

  /** What `trace_ray` returns. `Undefined` is a payload whose fields are all NaN
      (zero direction); only the sphere is kept. */
  datatype Trace = Miss | Hit(payload: HitPayload) | Undefined(sphere: nat)

  /** `closest_hit`: builds the payload in the sphere's frame and translates back. */
  function ClosestHit(ray: Ray, distance: real, sphere: Sphere, index: nat, ops: FloatOps): (p: HitPayload)
    ensures p.distance == distance && p.index == index && p.sphere == sphere
    ensures p.position == Add(ray.origin, Scale(ray.direction, distance))
    ensures p.normal == ops.normalOf(Sub(p.position, sphere.position), sphere.radius)
  {
    var fakeOrigin := Sub(ray.origin, sphere.position);
    var fakePosition := Add(fakeOrigin, Scale(ray.direction, distance));
    var normal := ops.normalOf(fakePosition, sphere.radius);
    HitPayload(distance, Add(fakePosition, sphere.position), normal, index, sphere)
  }

  /** `trace_ray`: select over all spheres, then build the payload of the choice. */
  function TraceRay(scene: Scene, ray: Ray, ops: FloatOps): (r: Trace)
    ensures r.Miss? <==> forall k :: 0 <= k < |scene.spheres| ==> NearRoot(ray, scene.spheres[k], ops.sqrt).Rejected?
    ensures r.Hit? ==>
      && IsClosest(Roots(scene, ray, ops.sqrt), Choice(r.payload.index, At(r.payload.distance)))
      && r.payload.sphere == scene.spheres[r.payload.index]
      && r.payload.position == Add(ray.origin, Scale(ray.direction, r.payload.distance))
    ensures r.Undefined? <==> QuadA(ray) == 0.0 && |scene.spheres| > 0
    ensures r.Undefined? ==> r.sphere == 0
  {
    var roots := Roots(scene, ray, ops.sqrt);
    match Select(roots)
    case None => Miss
    case Some(c) =>
      match c.distance
      case At(t) => Hit(ClosestHit(ray, t, scene.spheres[c.index], c.index, ops))
      case NotANumber =>
        assert roots[0].NotANumber?;
        Undefined(c.index)
      case Rejected => assert false; Miss
  }

  /** Tracing a zero direction through a non-empty scene keeps the first sphere
      with the NaN distance. */
  lemma ZeroDirectionUndefined(scene: Scene, ray: Ray, ops: FloatOps)
    requires ray.direction == Zero3 && |scene.spheres| > 0
    ensures TraceRay(scene, ray, ops) == Undefined(0)
  {
    assert QuadA(ray) == 0.0;
  }

  /** A hit never reports a sphere whose test failed, in particular not a sphere
      the ray starts inside. */
  lemma NoHitFromEnclosingSphere(scene: Scene, ray: Ray, ops: FloatOps, k: nat)
    requires k < |scene.spheres|
    requires QuadA(ray) != 0.0
    requires Dot(LocalOrigin(ray, scene.spheres[k]), LocalOrigin(ray, scene.spheres[k]))
               < scene.spheres[k].radius * scene.spheres[k].radius
    requires SqrtAt(ops.sqrt, Discriminant(ray, scene.spheres[k]))
    ensures TraceRay(scene, ray, ops).Hit? ==> TraceRay(scene, ray, ops).payload.index != k
  {
    InsideOriginRejected(ray, scene.spheres[k], ops.sqrt);
  }

  /** Of two spheres at the same accepted distance the earlier one is reported;
      a nearer one always beats a farther one. */
  lemma NearestEarliestWins(scene: Scene, ray: Ray, ops: FloatOps, i: nat, j: nat)
    requires i < j < |scene.spheres|
    requires NearRoot(ray, scene.spheres[i], ops.sqrt).At?
    requires NearRoot(ray, scene.spheres[j], ops.sqrt).At?
    requires NearRoot(ray, scene.spheres[i], ops.sqrt).t <= NearRoot(ray, scene.spheres[j], ops.sqrt).t
    ensures TraceRay(scene, ray, ops).Hit?
    ensures TraceRay(scene, ray, ops).payload.index != j
    ensures TraceRay(scene, ray, ops).payload.distance <= NearRoot(ray, scene.spheres[i], ops.sqrt).t
  {
    var roots := Roots(scene, ray, ops.sqrt);
    var r := TraceRay(scene, ray, ops);
    assert roots[i].At?;
    var c := Choice(r.payload.index, At(r.payload.distance));
    assert IsClosest(roots, c);
    if c.index < i {
      assert roots[c.index].At?;
    } else if c.index > i {
      assert roots[i].t > c.distance.t;
    }
  }
}

=== FILE: numeric.dfy ===
/** Fixed-width integers and the wrap-around of Rust's release-mode `u32` arithmetic. */
module Numeric {

  const U32_LIMIT: nat := 0x1_0000_0000

  type U32 = n: nat | n < 0x1_0000_0000

  type Byte = n: nat | n < 256

  /** `a * b` on `u32` with release-mode wrap-around. */
  function WrappingMul(a: U32, b: U32): (r: U32)
    ensures a * b < U32_LIMIT ==> r == a * b
    ensures r <= a * b
  {
    var n: nat := a * b;
    ModAtMost(n, U32_LIMIT);
    n % U32_LIMIT
  }

  lemma ModAtMost(n: nat, m: nat)
    requires m > 0
    ensures n % m <= n
  {
    if n >= m {
      assert n % m < m;
    }
  }

  /** Multiplying by an integer of magnitude at least one keeps the magnitude. */
  lemma MulMonotone(k: int, w: int)
    requires w >= 0
    ensures k >= 1 ==> k * w >= w
    ensures k <= -1 ==> k * w <= -w
  {
  }

  /** Row-major slot `y * w + x` of a pixel inside a `w` by `h` grid lies inside the grid's `w * h` slots. */
  lemma RowMajorInBounds(x: nat, y: nat, w: nat, h: nat)
    requires x < w && y < h
    ensures y * w + x < w * h
  {
    assert (y + 1) * w <= h * w;
  }

  /** A row that starts inside a `w` by `h` grid also ends inside it. */
  lemma RowFits(y: nat, w: nat, h: nat)
    requires y < h
    ensures y * w + w <= w * h
  {
    assert (y + 1) * w <= h * w;
  }

  /** `base` raised to the natural power `k`. */
  function Pow(base: real, k: nat): real
  {
    if k == 0 then 1.0 else base * Pow(base, k - 1)
  }

  /** One more factor on the right. */
  lemma PowStep(base: real, k: nat)
    ensures Pow(base, k + 1) == Pow(base, k) * base
  {
  }
}

=== FILE: renderer.dfy ===
/** The renderer `Lantern`: the packed output buffer, the per-pixel bounce loop
    and the frame pass that fills the buffer row by row. */
module Renderer {
  import opened Numeric
  import opened Wrappers
  import opened Vector
  import opened SceneData
  import opened Intersection
  import Winit
  import Textures
  import Cameras

  /** `Lantern`: the output texture and one packed word per texel. */
  datatype Lantern = Lantern(finalImage: Textures.Image, finalImageData: seq<U32>)

  const OutputName: string := "Lantern Output"
  const BounceLimit: nat := 2
  /** The factor the multiplier shrinks by after every hit. */
  const Decay: real := 0.7
  /** The colour a miss adds: black. */
  const Sky: Vec3 := Zero3
  /** How far a bounce's origin is pushed off the surface along the normal. */
  const NormalOffset: real := 0.0001

  /** The buffer holds one word per texel, counted as the `u32` product. */
  predicate Valid(l: Lantern)
  {
    |l.finalImageData| == Textures.PixelCount(l.finalImage)
  }

  function Zeros(n: nat): (s: seq<U32>)
    ensures |s| == n
    ensures forall i :: 0 <= i < n ==> s[i] == 0
  {
    seq(n, _ => 0)
  }

  /** `Lantern::new`: an output texture of the viewport's extent and a
      zero-filled buffer of `width * height` words. */
  function New(viewport: Winit.Size): (l: Lantern)
    ensures Textures.Size(l.finalImage) == viewport && l.finalImage.name == OutputName
    ensures Valid(l)
    ensures forall i :: 0 <= i < |l.finalImageData| ==> l.finalImageData[i] == 0
    ensures viewport.width * viewport.height < U32_LIMIT ==>
              |l.finalImageData| == viewport.width * viewport.height
  {
    Lantern(Textures.New(viewport.width, viewport.height, OutputName),
            Zeros(WrappingMul(viewport.width, viewport.height)))
  }

  /** `Lantern::resize`: nothing happens at the current extent; otherwise the
      texture is resized and the buffer replaced by a zero-filled one. */
  function Resize(l: Lantern, newSize: Winit.Size): (r: Lantern)
    ensures Textures.Size(r.finalImage) == newSize && r.finalImage.name == l.finalImage.name
    ensures Textures.Size(l.finalImage) == newSize ==> r == l
    ensures Textures.Size(l.finalImage) != newSize ==>
              && Valid(r)
              && (forall i :: 0 <= i < |r.finalImageData| ==> r.finalImageData[i] == 0)
    ensures Valid(l) ==> Valid(r)
  {
    if Textures.Size(l.finalImage) == newSize then l
    else
      Lantern(Textures.Resize(l.finalImage, newSize), Zeros(WrappingMul(newSize.width, newSize.height)))
  }

  /** Resizing a fresh renderer is the same as creating it at the new size. */
  lemma ResizeNew(viewport: Winit.Size, newSize: Winit.Size)
    ensures Resize(New(viewport), newSize) == New(newSize)
  {
  }

  lemma ResizeIdempotent(l: Lantern, newSize: Winit.Size)
    ensures Resize(Resize(l, newSize), newSize) == Resize(l, newSize)
  {
  }

  /** `Vector3::new(-1.0, -1.0, 1.0).normalize()`: the vector over its length
      `sqrt(3)`. That length is never zero; the guard only keeps the real
      division total. */
  function LightDirection(ops: FloatOps): (r: Vec3)
    ensures SqrtAt(ops.sqrt, 3.0) ==> Dot(r, r) == 1.0
  {
    var length := ops.sqrt(3.0);
    if length == 0.0 then Zero3
    else
      var k := 1.0 / length;
      assert SqrtAt(ops.sqrt, 3.0) ==> 3.0 * (k * k) == 1.0 by {
        if SqrtAt(ops.sqrt, 3.0) { InverseSquare(length, k); }
      }
      Scale(Vec3(-1.0, -1.0, 1.0), k)
  }

  lemma InverseSquare(s: real, k: real)
    requires s >= 0.0 && s * s == 3.0 && k == 1.0 / s
    ensures 3.0 * (k * k) == 1.0
  {
    assert s != 0.0;
    assert k * s == 1.0;
    assert (k * s) * (k * s) == 1.0;
    assert (k * k) * (s * s) == 1.0;
  }

  /** A beam is a ray, or `None` for the ray whose every coordinate is NaN that
      follows an undefined hit. */
  type Beam = Option<Ray>

  /** `trace_ray` on a beam. On the NaN ray every comparison is false, so no sphere
      is skipped and the first one is kept with a NaN distance. */
  function TraceBeam(scene: Scene, beam: Beam, ops: FloatOps): (t: Trace)
    ensures beam.None? ==> !t.Hit? && (t.Miss? <==> |scene.spheres| == 0)
    ensures t.Undefined? ==> t.sphere < |scene.spheres|
  {
    match beam
    case Some(ray) => TraceRay(scene, ray, ops)
    case None => if |scene.spheres| == 0 then Miss else Undefined(0)
  }

  /** The lit colour of a hit: the albedo times the clamped cosine between the
      normal and the reversed light direction. */
  function Shade(p: HitPayload, ops: FloatOps): Vec3
  {
    Scale(p.sphere.albedo, Max(Dot(p.normal, Neg(LightDirection(ops))), 0.0))
  }

  /** A surface whose albedo has no negative channel never shades negative. */
  lemma ShadeNonNegative(p: HitPayload, ops: FloatOps)
    requires NonNegative(p.sphere.albedo)
    ensures NonNegative(Shade(p, ops))
  {
    var a := p.sphere.albedo;
    var k := Max(Dot(p.normal, Neg(LightDirection(ops))), 0.0);
    ProductNonNegative(a.x, k);
    ProductNonNegative(a.y, k);
    ProductNonNegative(a.z, k);
  }

  lemma ProductNonNegative(a: real, b: real)
    requires a >= 0.0 && b >= 0.0
    ensures a * b >= 0.0
  {
  }

  /** What one trace adds before it is scaled by the multiplier: the sky on a
      miss, the lit albedo on a hit. An undefined hit has a NaN normal, and
      `f32::max` returns its operand that is not NaN, so its intensity is 0 and
      the albedo adds nothing. */
  function Contribution(t: Trace, ops: FloatOps): (r: Vec3)
    ensures !t.Hit? ==> r == Zero3
    ensures t.Hit? && NonNegative(t.payload.sphere.albedo) ==> NonNegative(r)
  {
    match t
    case Miss => Sky
    case Hit(p) =>
      if NonNegative(p.sphere.albedo) then ShadeNonNegative(p, ops); Shade(p, ops)
      else Shade(p, ops)
    case Undefined(_) => Zero3
  }

  /** No channel of `c` is negative. */
  predicate NonNegative(c: Vec3)
  {
    c.x >= 0.0 && c.y >= 0.0 && c.z >= 0.0
  }

  /** The beam after a hit: from the hit point nudged along the normal, reflected
      about the normal. An undefined hit leaves the NaN beam. */
  function NextBeam(beam: Beam, t: Trace, ops: FloatOps): Beam
  {
    match t
    case Hit(p) =>
      (match beam
       case Some(ray) =>
         Some(Ray(Add(p.position, Scale(p.normal, NormalOffset)), ops.reflect(ray.direction, p.normal)))
       case None => None)
    case Undefined(_) => None
    case Miss => beam
  }

  /** `trace_ray` as a function of the beam alone. */
  function Tracer(scene: Scene, ops: FloatOps): Beam -> Trace
  {
    beam => TraceBeam(scene, beam, ops)
  }

  /** The beam update after a trace, as a function of beam and trace. */
  function Stepper(ops: FloatOps): (Beam, Trace) -> Beam
  {
    (beam, t) => NextBeam(beam, t, ops)
  }

  /** The traces `per_pixel` performs from `beam` with `n` iterations left: one
      per iteration, ending at the first miss. `trace` and `next` are the
      tracer and beam update (`Tracer` and `Stepper`); the loop's shape does not
      depend on them. */
  function Bounces(trace: Beam -> Trace, next: (Beam, Trace) -> Beam, beam: Beam, n: nat): (ts: seq<Trace>)
    ensures |ts| <= n
    ensures n > 0 ==> |ts| > 0
    decreases n
  {
    if n == 0 then []
    else
      var t := trace(beam);
      if t.Miss? then [t] else [t] + Bounces(trace, next, next(beam, t), n - 1)
  }

  /** `per_pixel` stops at the first miss and only there: every trace but the
      last is a hit or undefined, and ending early means the last one missed. */
  lemma {:induction false} BouncesStopAtMiss(trace: Beam -> Trace, next: (Beam, Trace) -> Beam, beam: Beam, n: nat)
    ensures var ts := Bounces(trace, next, beam, n);
      && (forall k :: 0 <= k < |ts| - 1 ==> !ts[k].Miss?)
      && (0 < |ts| < n ==> ts[|ts| - 1].Miss?)
    decreases n
  {
    if n > 0 {
      var t := trace(beam);
      if !t.Miss? {
        var rest := Bounces(trace, next, next(beam, t), n - 1);
        BouncesStopAtMiss(trace, next, next(beam, t), n - 1);
        var ts := [t] + rest;
        assert Bounces(trace, next, beam, n) == ts;
        forall k | 0 <= k < |ts| - 1
          ensures !ts[k].Miss?
        {
          if k > 0 {
            assert ts[k] == rest[k - 1];
          }
        }
        assert 0 < |ts| < n ==> ts[|ts| - 1] == rest[|rest| - 1];
      }
    }
  }

  /** The colour of a trace sequence: the `k`-th trace's contribution weighted by
      `Decay^k`, summed. */
  function Radiance(ts: seq<Trace>, contribution: Trace -> Vec3): Vec3
    decreases |ts|
  {
    if |ts| == 0 then Zero3
    else
      var i := |ts| - 1;
      Add(Radiance(ts[..i], contribution), Scale(contribution(ts[i]), Pow(Decay, i)))
  }

  /** `Contribution` as a function of the trace alone. */
  function Contributor(ops: FloatOps): Trace -> Vec3
  {
    t => Contribution(t, ops)
  }

  /** The primary beam of the pixel at buffer slot `index`: from the camera
      position along that slot's ray. */
  function PrimaryBeam(cam: Cameras.Camera, index: nat): Beam
    requires index < |cam.rays|
  {
    Some(Ray(cam.position, cam.rays[index]))
  }

  /** The RGBA colour `per_pixel` returns for slot `index`: the weighted sum of
      its traces with alpha 1. */
  function PixelColor(scene: Scene, cam: Cameras.Camera, index: nat, ops: FloatOps): Vec4
    requires index < |cam.rays|
  {
    var c := Radiance(Bounces(Tracer(scene, ops), Stepper(ops), PrimaryBeam(cam, index), BounceLimit), Contributor(ops));
    Vec4(c.x, c.y, c.z, 1.0)
  }

  /** The loop of `per_pixel`, for any tracer: trace the beam, stop after the
      first miss (adding the sky colour `sky`), otherwise add the contribution at
      the current multiplier, scale the multiplier by `Decay` and move to the
      next beam. */
  method March(trace: Beam -> Trace, next: (Beam, Trace) -> Beam, contribution: Trace -> Vec3,
               sky: Vec3, start: Beam)
    returns (rgb: Vec3, traces: seq<Trace>)
    requires forall t: Trace :: t.Miss? ==> contribution(t) == sky
    ensures traces == Bounces(trace, next, start, BounceLimit)
    ensures rgb == Radiance(traces, contribution)
    ensures 0 < |traces| <= BounceLimit
  {
    var beam := start;
    rgb := Zero3;
    var multiplier := 1.0;
    traces := [];
    var i := 0;
    while i < BounceLimit
      invariant 0 <= i <= BounceLimit && |traces| == i
      invariant Bounces(trace, next, start, BounceLimit) == traces + Bounces(trace, next, beam, BounceLimit - i)
      invariant multiplier == Pow(Decay, i)
      invariant rgb == Radiance(traces, contribution)
    {
      var t := trace(beam);
      if t.Miss? {
        BouncesEnd(trace, next, start, traces, beam, BounceLimit - i, BounceLimit);
        rgb := Add(rgb, Scale(sky, multiplier));
        RadianceSnoc(traces, t, contribution);
        traces := traces + [t];
        break;
      }
      BouncesContinue(trace, next, start, traces, beam, BounceLimit - i, BounceLimit);
      rgb := Add(rgb, Scale(contribution(t), multiplier));
      multiplier := multiplier * Decay;
      PowStep(Decay, i);
      RadianceSnoc(traces, t, contribution);
      beam := next(beam, t);
      traces := traces + [t];
      i := i + 1;
    }
  }

  /** A pixel whose primary ray meets nothing is opaque black: the sky colour. */
  lemma MissedPixelIsBlack(scene: Scene, cam: Cameras.Camera, index: nat, ops: FloatOps)
    requires index < |cam.rays|
    requires TraceBeam(scene, PrimaryBeam(cam, index), ops).Miss?
    ensures PixelColor(scene, cam, index, ops) == Vec4(0.0, 0.0, 0.0, 1.0)
  {
    var start := PrimaryBeam(cam, index);
    assert Tracer(scene, ops)(start).Miss?;
    DarkAfterMiss(Tracer(scene, ops), Stepper(ops), Contributor(ops), start);
  }

  /** For any tracer: when the first trace misses and a miss contributes
      nothing, the traces add up to black. */
  lemma DarkAfterMiss(trace: Beam -> Trace, next: (Beam, Trace) -> Beam,
                      contribution: Trace -> Vec3, start: Beam)
    requires trace(start).Miss? && contribution(trace(start)) == Zero3
    ensures Radiance(Bounces(trace, next, start, BounceLimit), contribution) == Zero3
  {
    var ts := Bounces(trace, next, start, BounceLimit);
    assert ts == [trace(start)];
    RadianceDark(ts, contribution);
  }

  /** With no spheres every pixel is opaque black. */
  lemma EmptySceneIsBlack(scene: Scene, cam: Cameras.Camera, index: nat, ops: FloatOps)
    requires index < |cam.rays| && |scene.spheres| == 0
    ensures PixelColor(scene, cam, index, ops) == Vec4(0.0, 0.0, 0.0, 1.0)
  {
    MissedPixelIsBlack(scene, cam, index, ops);
  }

  /** For any tracer: when the first trace is undefined, its successor is the
      NaN beam and tracing that beam never hits, the traces add up to black as
      long as nothing but a hit contributes colour. */
  lemma DarkAfterUndefined(trace: Beam -> Trace, next: (Beam, Trace) -> Beam,
                           contribution: Trace -> Vec3, start: Beam)
    requires trace(start).Undefined? && next(start, trace(start)) == None && !trace(None).Hit?
    requires forall t: Trace :: !t.Hit? ==> contribution(t) == Zero3
    ensures Radiance(Bounces(trace, next, start, BounceLimit), contribution) == Zero3
  {
    var t0, t1 := trace(start), trace(None);
    var ts := Bounces(trace, next, start, BounceLimit);
    assert Bounces(trace, next, None, 1) == [t1];
    assert ts == [t0, t1];
    RadianceDark(ts, contribution);
  }

  /** Traces that each contribute nothing add up to black. */
  lemma {:induction false} RadianceDark(ts: seq<Trace>, contribution: Trace -> Vec3)
    requires forall k :: 0 <= k < |ts| ==> contribution(ts[k]) == Zero3
    ensures Radiance(ts, contribution) == Zero3
    decreases |ts|
  {
    if |ts| > 0 {
      var i := |ts| - 1;
      RadianceDark(ts[..i], contribution);
      ScaleZero(Pow(Decay, i));
      AddZero(Zero3);
    }
  }

  /** A pixel whose primary trace is undefined is opaque black: the undefined
      hit adds nothing, its successor beam is the NaN ray, and tracing that ray
      is undefined again. */
  lemma UndefinedPixelIsBlack(scene: Scene, cam: Cameras.Camera, index: nat, ops: FloatOps)
    requires index < |cam.rays|
    requires TraceBeam(scene, PrimaryBeam(cam, index), ops).Undefined?
    ensures PixelColor(scene, cam, index, ops) == Vec4(0.0, 0.0, 0.0, 1.0)
  {
    var start := PrimaryBeam(cam, index);
    assert Stepper(ops)(start, Tracer(scene, ops)(start)) == None;
    assert !Tracer(scene, ops)(None).Hit?;
    DarkAfterUndefined(Tracer(scene, ops), Stepper(ops), Contributor(ops), start);
  }

  /** The beam of a zero direction is undefined in a non-empty scene. */
  lemma ZeroBeamUndefined(scene: Scene, ray: Ray, ops: FloatOps)
    requires ray.direction == Zero3 && |scene.spheres| > 0
    ensures TraceBeam(scene, Some(ray), ops) == Undefined(0)
  {
    ZeroDirectionUndefined(scene, ray, ops);
  }

  /** A zero ray direction makes every pixel that uses it opaque black, not NaN. */
  lemma ZeroDirectionIsBlack(scene: Scene, cam: Cameras.Camera, index: nat, ops: FloatOps)
    requires index < |cam.rays| && cam.rays[index] == Zero3
    ensures PixelColor(scene, cam, index, ops) == Vec4(0.0, 0.0, 0.0, 1.0)
  {
    if |scene.spheres| == 0 {
      EmptySceneIsBlack(scene, cam, index, ops);
    } else {
      var ray := Ray(cam.position, cam.rays[index]);
      assert PrimaryBeam(cam, index) == Some(ray);
      ZeroBeamUndefined(scene, ray, ops);
      UndefinedPixelIsBlack(scene, cam, index, ops);
    }
  }

  /** `per_pixel` for pixel (x, y) of an image `width` wide: the loop run on the
      pixel's primary beam with `trace_ray`, giving at most `BounceLimit` traces
      and the colour `PixelColor` describes, with alpha 1. */
  method PerPixel(scene: Scene, cam: Cameras.Camera, x: nat, y: nat, width: nat, ops: FloatOps)
    returns (color: Vec4, traces: seq<Trace>)
    requires y * width + x < |cam.rays| && y * width + x < U32_LIMIT
    ensures traces == Bounces(Tracer(scene, ops), Stepper(ops), PrimaryBeam(cam, y * width + x), BounceLimit)
    ensures color == PixelColor(scene, cam, y * width + x, ops)
    ensures 0 < |traces| <= BounceLimit
    ensures color.w == 1.0
  {
    var rgb;
    rgb, traces := March(Tracer(scene, ops), Stepper(ops), Contributor(ops), Sky, PrimaryBeam(cam, y * width + x));
    color := Vec4(rgb.x, rgb.y, rgb.z, 1.0);
  }

  /** A loop iteration that does not miss appends its trace and moves on to the
      next beam. */
  lemma BouncesContinue(trace: Beam -> Trace, next: (Beam, Trace) -> Beam, start: Beam,
                        done: seq<Trace>, beam: Beam, n: nat, limit: nat)
    requires Bounces(trace, next, start, limit) == done + Bounces(trace, next, beam, n)
    requires n > 0 && !trace(beam).Miss?
    ensures Bounces(trace, next, start, limit)
         == (done + [trace(beam)]) + Bounces(trace, next, next(beam, trace(beam)), n - 1)
  {
    var rest := Bounces(trace, next, next(beam, trace(beam)), n - 1);
    assert done + ([trace(beam)] + rest) == (done + [trace(beam)]) + rest;
  }

  /** A loop iteration that misses appends its trace and ends the sequence. */
  lemma BouncesEnd(trace: Beam -> Trace, next: (Beam, Trace) -> Beam, start: Beam,
                   done: seq<Trace>, beam: Beam, n: nat, limit: nat)
    requires Bounces(trace, next, start, limit) == done + Bounces(trace, next, beam, n)
    requires n > 0 && trace(beam).Miss?
    ensures Bounces(trace, next, start, limit) == done + [trace(beam)]
  {
  }

  /** Appending a trace adds its contribution at the next power of `Decay`. */
  lemma RadianceSnoc(ts: seq<Trace>, t: Trace, contribution: Trace -> Vec3)
    ensures Radiance(ts + [t], contribution) == Add(Radiance(ts, contribution), Scale(contribution(t), Pow(Decay, |ts|)))
  {
    assert (ts + [t])[..|ts|] == ts;
  }

  /** The word stored for one pixel: the colour clamped to [0, 1] per channel,
      then packed by `pack`, which stands for `vec4_to_rgba` (its byte layout is
      not part of this model). */
  function Word(pack: Vec4 -> U32, color: Vec4): U32
  {
    pack(Clamp4(color))
  }

  /** Byte `k` of a word in memory order on a little-endian target. */
  function ByteOf(word: U32, k: nat): Byte
    requires k < 4
  {
    var place := if k == 0 then 0x1 else if k == 1 then 0x100 else if k == 2 then 0x1_0000 else 0x100_0000;
    (word / place) % 0x100
  }

  /** Reads a little-endian word back from four bytes. */
  function WordAt(bytes: seq<Byte>, i: nat): nat
    requires 4 * i + 4 <= |bytes|
  {
    var b0, b1, b2, b3: nat := bytes[4 * i], bytes[4 * i + 1], bytes[4 * i + 2], bytes[4 * i + 3];
    b0 + 0x100 * b1 + 0x1_0000 * b2 + 0x100_0000 * b3
  }

  /** `bytemuck::cast_slice` from words to bytes: four bytes per word, in order. */
  function CastSlice(words: seq<U32>): (bytes: seq<Byte>)
    ensures |bytes| == 4 * |words|
  {
    seq(4 * |words|, j requires 0 <= j < 4 * |words| => ByteOf(words[j / 4], j % 4))
  }

  /** The cast only reinterprets memory: reading word `i` back from the bytes
      gives `words[i]`. */
  lemma CastSliceRoundTrip(words: seq<U32>, i: nat)
    requires i < |words|
    ensures 4 * i + 4 <= |CastSlice(words)| && WordAt(CastSlice(words), i) == words[i]
  {
    var b := CastSlice(words);
    CastSliceByte(words, i, 0);
    CastSliceByte(words, i, 1);
    CastSliceByte(words, i, 2);
    CastSliceByte(words, i, 3);
    ByteOfRoundTrip(words[i]);
  }

  /** Byte `k` of word `i` sits at offset `4 * i + k`. */
  lemma CastSliceByte(words: seq<U32>, i: nat, k: nat)
    requires i < |words| && k < 4
    ensures 4 * i + k < |CastSlice(words)| && CastSlice(words)[4 * i + k] == ByteOf(words[i], k)
  {
    var j := 4 * i + k;
    assert j / 4 == i && j % 4 == k;
  }

  /** The four bytes of a word, weighted by their place, add back up to the word. */
  lemma ByteOfRoundTrip(word: U32)
    ensures ByteOf(word, 0) + 0x100 * ByteOf(word, 1) + 0x1_0000 * ByteOf(word, 2) + 0x100_0000 * ByteOf(word, 3) == word
  {
    var q1, r0 := word / 0x100, word % 0x100;
    var q2, r1 := q1 / 0x100, q1 % 0x100;
    var q3, r2 := q2 / 0x100, q2 % 0x100;
    assert word == 0x1_0000 * q2 + (0x100 * r1 + r0);
    assert word / 0x1_0000 == q2;
    assert word == 0x100_0000 * q3 + (0x1_0000 * r2 + 0x100 * r1 + r0);
    assert word / 0x100_0000 == q3;
    assert q3 < 0x100;
  }

  /** The first `n` slots of `data` hold the packed colours of their pixels. */
  ghost predicate Filled(data: seq<U32>, n: nat, scene: Scene, cam: Cameras.Camera, ops: FloatOps, pack: Vec4 -> U32)
  {
    n <= |data| && n <= |cam.rays|
    && forall i :: 0 <= i < n ==> i < |cam.rays| && data[i] == Word(pack, PixelColor(scene, cam, i, ops))
  }

  /** Writing slot `n`'s word extends a filled prefix by one slot. */
  lemma FilledExtend(data: seq<U32>, n: nat, word: U32, scene: Scene, cam: Cameras.Camera, ops: FloatOps, pack: Vec4 -> U32)
    requires Filled(data, n, scene, cam, ops, pack) && n < |data| && n < |cam.rays|
    requires word == Word(pack, PixelColor(scene, cam, n, ops))
    ensures Filled(data[n := word], n + 1, scene, cam, ops, pack)
  {
  }

  /** One step of the inner loop: slot `y * width + x` receives the packed,
      clamped colour of pixel (x, y). */
  method FillPixel(data: seq<U32>, ghost visits: seq<nat>, scene: Scene, cam: Cameras.Camera, ops: FloatOps,
                   pack: Vec4 -> U32, x: nat, y: nat, width: nat, row: nat)
    returns (out: seq<U32>, ghost seen: seq<nat>)
    requires row == y * width && x < width && row + width <= |data| && |data| <= |cam.rays| && |data| < U32_LIMIT
    requires Filled(data, row + x, scene, cam, ops, pack)
    requires |visits| == row + x
    ensures out == data[row + x := Word(pack, PixelColor(scene, cam, row + x, ops))]
    ensures Filled(out, row + x + 1, scene, cam, ops, pack)
    ensures seen == visits + [row + x]
  {
    var index := row + x;
    assert y * width + x == index;
    var color, _ := PerPixel(scene, cam, x, y, width, ops);
    FilledExtend(data, index, Word(pack, color), scene, cam, ops, pack);
    out := data[index := Word(pack, color)];
    seen := visits + [index];
  }

  /** The inner loop of `Lantern::update` for row `y`: slots `y * width` up to
      `(y + 1) * width` receive their pixels' words, left to right, and no other
      slot changes. */
  method FillRow(data: seq<U32>, ghost visits: seq<nat>, scene: Scene, cam: Cameras.Camera, ops: FloatOps,
                 pack: Vec4 -> U32, y: nat, width: nat, row: nat)
    returns (out: seq<U32>, ghost seen: seq<nat>)
    requires row == y * width && row + width <= |data| && |data| <= |cam.rays| && |data| < U32_LIMIT
    requires Filled(data, row, scene, cam, ops, pack)
    requires |visits| == row && forall k :: 0 <= k < row ==> visits[k] == k
    ensures |out| == |data|
    ensures Filled(out, row + width, scene, cam, ops, pack)
    ensures forall i :: row + width <= i < |data| ==> out[i] == data[i]
    ensures |seen| == row + width && forall k :: 0 <= k < row + width ==> seen[k] == k
  {
    out, seen := data, visits;
    var x := 0;
    while x < width
      invariant 0 <= x <= width && |out| == |data|
      invariant Filled(out, row + x, scene, cam, ops, pack)
      invariant forall i :: row + width <= i < |data| ==> out[i] == data[i]
      invariant |seen| == row + x && forall k :: 0 <= k < row + x ==> seen[k] == k
    {
      out, seen := FillPixel(out, seen, scene, cam, ops, pack, x, y, width, row);
      x := x + 1;
    }
  }

  /** The slot `update` computes for pixel (x, y): `y * width + x` in `u32`
      arithmetic, where the wrapping product and the wrapping sum together
      wrap once modulo 2^32. */
  function WrappedSlot(x: nat, y: nat, width: nat): U32
  {
    (y * width + x) % U32_LIMIT
  }

  /** Pixel (x, y)'s slot is past the camera's ray list, read first by
      `per_pixel`, or past the buffer of `width * height` words, written next:
      either index panics. */
  predicate SlotOutOfRange(x: nat, y: nat, width: U32, height: U32, rayCount: nat)
  {
    WrappedSlot(x, y, width) >= rayCount || WrappedSlot(x, y, width) >= WrappingMul(width, height)
  }

  /** The frame pass visits every pixel of the grid unless one panics, so it
      panics exactly when some pixel's wrapped slot is out of range. That
      happens exactly when `width * height` does not fit a `u32` (slot
      `(width * height) mod 2^32` is reached before any wrap and is past the
      buffer) or exceeds the number of camera rays (slot `|rays|` is reached). */
  lemma PanicIffSlotOutOfRange(width: U32, height: U32, rayCount: nat)
    ensures (exists x: nat, y: nat :: x < width && y < height && SlotOutOfRange(x, y, width, height, rayCount))
        <==> width * height >= U32_LIMIT || width * height > rayCount
  {
    if width * height >= U32_LIMIT || width * height > rayCount {
      var x, y := SlotPastEnd(width, height, rayCount);
    } else {
      forall x: nat, y: nat | x < width && y < height
        ensures !SlotOutOfRange(x, y, width, height, rayCount)
      {
        SlotInRange(x, y, width, height, rayCount);
      }
    }
  }

  /** The pixel whose slot is the first one past the rays or the buffer. */
  lemma SlotPastEnd(w: U32, h: U32, rayCount: nat) returns (x: nat, y: nat)
    requires w * h >= U32_LIMIT || w * h > rayCount
    ensures x < w && y < h && SlotOutOfRange(x, y, w, h, rayCount)
  {
    var k: nat := if w * h >= U32_LIMIT then WrappingMul(w, h) else rayCount;
    assert k < w * h && k < U32_LIMIT;
    Cameras.PixelOfIndex(k, w, h);
    x, y := k % w, k / w;
    assert y * w + x == k;
    assert WrappedSlot(x, y, w) == k;
  }

  /** Without a wrap, every pixel's slot is its row-major index, inside both lists. */
  lemma SlotInRange(x: nat, y: nat, w: U32, h: U32, rayCount: nat)
    requires x < w && y < h && w * h < U32_LIMIT && w * h <= rayCount
    ensures !SlotOutOfRange(x, y, w, h, rayCount)
  {
    RowMajorInBounds(x, y, w, h);
    assert WrappedSlot(x, y, w) == y * w + x;
  }

  /** `Lantern::update`: for y in rows, for x in columns, slot `y * width + x`
      receives the packed, clamped colour of pixel (x, y); then the buffer is
      uploaded. The frame pass panics on the first pixel whose wrapped slot lies
      outside the camera's ray list or the buffer (`SlotOutOfRange`); by
      `PanicIffSlotOutOfRange` some pixel has one exactly when `width * height`
      does not fit a `u32` or exceeds the number of camera rays, so the method
      checks that condition up front. `visits` lists the slots in the order
      they are written. */
  method Update(l: Lantern, scene: Scene, cam: Cameras.Camera, ops: FloatOps, pack: Vec4 -> U32)
    returns (r: Result<Lantern>, ghost visits: seq<nat>)
    requires Valid(l)
    ensures var w, h := l.finalImage.width, l.finalImage.height;
      r.Panic? <==> w * h >= U32_LIMIT || w * h > |cam.rays|
    ensures var w, h := l.finalImage.width, l.finalImage.height;
      r.Panic? <==> exists x: nat, y: nat :: x < w && y < h && SlotOutOfRange(x, y, w, h, |cam.rays|)
    ensures r.Ok? ==> r.value.finalImage == l.finalImage && Valid(r.value)
    ensures r.Ok? ==> |r.value.finalImageData| == l.finalImage.width * l.finalImage.height
    ensures r.Ok? ==> forall i :: 0 <= i < |r.value.finalImageData| ==>
              i < |cam.rays| && r.value.finalImageData[i] == Word(pack, PixelColor(scene, cam, i, ops))
    ensures r.Ok? ==> Textures.LoadImage(r.value.finalImage, CastSlice(r.value.finalImageData)).Ok?
    ensures r.Ok? ==> |visits| == |r.value.finalImageData| && forall k :: 0 <= k < |visits| ==> visits[k] == k
  {
    var w, h := l.finalImage.width, l.finalImage.height;
    PanicIffSlotOutOfRange(w, h, |cam.rays|);
    visits := [];
    if w * h >= U32_LIMIT || w * h > |cam.rays| {
      return Panic("index out of bounds"), visits;
    }
    var total := w * h;
    var data := l.finalImageData;
    var y, row := 0, 0;
    while y < h
      invariant 0 <= y <= h && row == y * w && row <= total && |data| == total
      invariant Filled(data, row, scene, cam, ops, pack)
      invariant |visits| == row && forall k :: 0 <= k < row ==> visits[k] == k
    {
      RowFits(y, w, h);
      data, visits := FillRow(data, visits, scene, cam, ops, pack, y, w, row);
      assert row + w == (y + 1) * w;
      y, row := y + 1, row + w;
    }
    assert row == total by {
      assert y == h;
    }
    r := Ok(Lantern(l.finalImage, data));
  }
}

=== FILE: scene.dfy ===
/** The plain data holders of the renderer: spheres, the scene, rays. */
module SceneData {
  import opened Vector

  /** A sphere: centre, radius and surface colour. */
  datatype Sphere = Sphere(position: Vec3, radius: real, albedo: Vec3)

  /** The ordered list of spheres the tracer scans. */
  datatype Scene = Scene(spheres: seq<Sphere>)

  /** A ray: origin and (not necessarily unit) direction. */
  datatype Ray = Ray(origin: Vec3, direction: Vec3)
}

=== FILE: startup.dfy ===
/** Program start-up: the window icon's RGB-to-RGBA expansion and the event
    loop's exit rule (`run` in src/lib.rs). Decoding the embedded PNG, building
    the window and the logger are I/O and are not modelled. */
module Startup {
  import opened Numeric
  import opened Wrappers
  import opened Winit

  const Opaque: Byte := 0xFF

  /** `n` zero bytes: the freshly allocated `with_alpha` buffer. */
  function ZeroBytes(n: nat): (r: seq<Byte>)
    ensures |r| == n && forall i :: 0 <= i < |r| ==> r[i] == 0
  {
    if n == 0 then [] else [0] + ZeroBytes(n - 1)
  }

  /** How many (RGB, RGBA) chunk pairs the zip of `chunks_exact(3)` and
      `chunks_exact_mut(4)` visits. */
  function Chunks(rgb: seq<Byte>, outLen: nat): nat
  {
    if |rgb| / 3 < outLen / 4 then |rgb| / 3 else outLen / 4
  }

  /** A buffer of `outLen` zero bytes whose leading 4-byte chunks are filled
      from the 3-byte chunks of `rgb` with an opaque alpha, as far as both
      chunk sequences reach; the rest stays zero. */
  function Expand(rgb: seq<Byte>, outLen: nat): (out: seq<Byte>)
    ensures |out| == outLen
    decreases outLen
  {
    if |rgb| >= 3 && outLen >= 4 then rgb[..3] + [Opaque] + Expand(rgb[3..], outLen - 4)
    else ZeroBytes(outLen)
  }

  /** Chunk `j` of the expansion starts with chunk `j` of the input. */
  lemma {:induction false} ExpandChunk(rgb: seq<Byte>, outLen: nat, j: nat)
    requires j < Chunks(rgb, outLen)
    ensures 4 * j + 4 <= outLen && 3 * j + 3 <= |rgb|
    ensures Expand(rgb, outLen)[4 * j..4 * j + 3] == rgb[3 * j..3 * j + 3]
    decreases j
  {
    var out := Expand(rgb, outLen);
    var tail := Expand(rgb[3..], outLen - 4);
    assert out == rgb[..3] + [Opaque] + tail;
    if j == 0 {
      assert out[..3] == rgb[..3];
    } else {
      ExpandChunk(rgb[3..], outLen - 4, j - 1);
      var o, i := 4 * (j - 1), 3 * (j - 1);
      assert 4 * j == o + 4 && 3 * j == i + 3;
      assert out[4..] == tail;
      assert out[o + 4..o + 7] == tail[o..o + 3];
      assert rgb[i + 3..i + 6] == rgb[3..][i..i + 3];
    }
  }

  /** Chunk `j` of the expansion ends with the opaque alpha 0xFF. */
  lemma {:induction false} ExpandAlpha(rgb: seq<Byte>, outLen: nat, j: nat)
    requires j < Chunks(rgb, outLen)
    ensures 4 * j + 4 <= outLen
    ensures Expand(rgb, outLen)[4 * j + 3] == Opaque
    decreases j
  {
    var out := Expand(rgb, outLen);
    var tail := Expand(rgb[3..], outLen - 4);
    assert out == rgb[..3] + [Opaque] + tail;
    if j > 0 {
      ExpandAlpha(rgb[3..], outLen - 4, j - 1);
      var o := 4 * (j - 1);
      assert 4 * j + 3 == o + 7;
      assert out[o + 7] == tail[o + 3];
    }
  }

  /** Bytes past the last visited chunk keep the buffer's initial zero. */
  lemma {:induction false} ExpandPadding(rgb: seq<Byte>, outLen: nat, i: nat)
    requires 4 * Chunks(rgb, outLen) <= i < outLen
    ensures Expand(rgb, outLen)[i] == 0
    decreases outLen
  {
    if |rgb| >= 3 && outLen >= 4 {
      var tail := Expand(rgb[3..], outLen - 4);
      assert Chunks(rgb, outLen) == Chunks(rgb[3..], outLen - 4) + 1;
      ExpandPadding(rgb[3..], outLen - 4, i - 4);
      assert Expand(rgb, outLen)[i] == tail[i - 4];
    }
  }

  /** The RGB bytes of an RGBA buffer: each 4-byte chunk without its alpha. */
  function StripAlpha(rgba: seq<Byte>): (rgb: seq<Byte>)
    ensures |rgb| == 3 * (|rgba| / 4)
    decreases |rgba|
  {
    if |rgba| < 4 then [] else rgba[..3] + StripAlpha(rgba[4..])
  }

  /** Expanding `n` RGB pixels into exactly `n` RGBA slots and stripping the
      alpha again gives back the RGB pixels. */
  lemma {:induction false} StripAfterExpand(rgb: seq<Byte>, n: nat)
    requires |rgb| == 3 * n
    ensures StripAlpha(Expand(rgb, 4 * n)) == rgb
    decreases n
  {
    if n > 0 {
      var tail := Expand(rgb[3..], 4 * (n - 1));
      StripAfterExpand(rgb[3..], n - 1);
      var out := Expand(rgb, 4 * n);
      assert out == rgb[..3] + [Opaque] + tail;
      assert out[..3] == rgb[..3] && out[4..] == tail;
      assert rgb == rgb[..3] + rgb[3..];
    }
  }

  /** The icon buffer `run` hands to `Icon::from_rgba`. `size` is the decoded
      frame's byte count and `rgba` the decoder's output buffer. The pixel count
      `width * height` is a wrapping `u32` product; dividing by it panics when it
      is zero. When the frame holds three bytes per pixel (by integer division)
      the pixels are widened to RGBA with an opaque alpha into a buffer of
      `pixels * 4` bytes (again wrapping); otherwise the buffer is used as it is. */
  function IconRgba(rgba: seq<Byte>, size: nat, width: U32, height: U32): (r: Result<seq<Byte>>)
    ensures r.Panic? <==> WrappingMul(width, height) == 0
    ensures r.Ok? && size / WrappingMul(width, height) != 3 ==> r.value == rgba
    ensures r.Ok? && size / WrappingMul(width, height) == 3 ==>
      var outLen := WrappingMul(WrappingMul(width, height), 4);
      && |r.value| == outLen
      && (forall j :: 0 <= j < Chunks(rgba, outLen) ==>
            r.value[4 * j..4 * j + 3] == rgba[3 * j..3 * j + 3] && r.value[4 * j + 3] == Opaque)
      && (forall i :: 4 * Chunks(rgba, outLen) <= i < outLen ==> r.value[i] == 0)
  {
    var pixels := WrappingMul(width, height);
    if pixels == 0 then Panic("attempt to divide by zero")
    else if size / pixels == 3 then
      var outLen := WrappingMul(pixels, 4);
      var out := Expand(rgba, outLen);
      assert forall j :: 0 <= j < Chunks(rgba, outLen) ==>
        out[4 * j..4 * j + 3] == rgba[3 * j..3 * j + 3] && out[4 * j + 3] == Opaque by {
        forall j | 0 <= j < Chunks(rgba, outLen)
          ensures out[4 * j..4 * j + 3] == rgba[3 * j..3 * j + 3] && out[4 * j + 3] == Opaque
        {
          ExpandChunk(rgba, outLen, j);
          ExpandAlpha(rgba, outLen, j);
        }
      }
      assert forall i :: 4 * Chunks(rgba, outLen) <= i < outLen ==> out[i] == 0 by {
        forall i | 4 * Chunks(rgba, outLen) <= i < outLen
          ensures out[i] == 0
        {
          ExpandPadding(rgba, outLen, i);
        }
      }
      Ok(out)
    else Ok(rgba)
  }

  /** An RGB icon whose buffer holds exactly its `width * height` pixels, with
      no wrap-around, becomes an RGBA buffer of four bytes per pixel that
      carries the same colours: stripping the alpha gives the input back. */
  lemma RgbIconRoundTrip(rgba: seq<Byte>, width: U32, height: U32)
    requires 0 < width * height && 4 * (width * height) < U32_LIMIT
    requires |rgba| == 3 * (width * height)
    ensures var r := IconRgba(rgba, |rgba|, width, height);
      && r.Ok? && |r.value| == 4 * (width * height) && StripAlpha(r.value) == rgba
  {
    var n := width * height;
    assert |rgba| / n == 3;
    StripAfterExpand(rgba, n);
  }

  /** An icon that already has four bytes per pixel is passed through unchanged. */
  lemma RgbaIconUnchanged(rgba: seq<Byte>, width: U32, height: U32)
    requires 0 < width * height < U32_LIMIT
    requires |rgba| == 4 * (width * height)
    ensures IconRgba(rgba, |rgba|, width, height) == Ok(rgba)
  {
    var n := width * height;
    assert WrappingMul(width, height) == n;
    QuotientOfMultiple(4, n);
  }

  lemma QuotientOfMultiple(q: nat, n: nat)
    requires n > 0
    ensures (q * n) / n == q
  {
    var d, m := (q * n) / n, (q * n) % n;
    assert (q - d) * n == m;
    MulMonotone(q - d, n);
  }

  /** Events the event loop receives: window events tagged with their window,
      and everything else. */
  datatype AppEvent = AppWindowEvent(windowId: nat, event: WindowEvent) | OtherAppEvent

  /** What the event loop does after the handler returns. `Poll` is the value
      it starts with. */
  datatype ControlFlow = Poll | ExitWithCode(code: int)

  /** The two requests that end the program: the system asks to close our
      window, or Escape is newly pressed in it. */
  predicate IsQuit(window: nat, e: AppEvent)
  {
    e == AppWindowEvent(window, CloseRequested)
    || e == AppWindowEvent(window, KeyboardInput(Pressed, Some(Escape)))
  }

  /** The handler `run` gives the event loop: a close request or an Escape
      press on the program's own window sets exit code 0; anything else,
      including events of other windows, leaves the control flow alone. */
  function HandleEvent(window: nat, flow: ControlFlow, e: AppEvent): (r: ControlFlow)
    ensures IsQuit(window, e) ==> r == ExitWithCode(0)
    ensures !IsQuit(window, e) ==> r == flow
  {
    match e
    case AppWindowEvent(id, event) =>
      if id != window then flow
      else (
        match event
        case CloseRequested => ExitWithCode(0)
        case KeyboardInput(Pressed, Some(Escape)) => ExitWithCode(0)
        case _ => flow)
    case OtherAppEvent => flow
  }

  /** The control flow after the handler has seen `events` in order. */
  function RunEvents(window: nat, flow: ControlFlow, events: seq<AppEvent>): ControlFlow
    decreases |events|
  {
    if |events| == 0 then flow
    else RunEvents(window, HandleEvent(window, flow, events[0]), events[1..])
  }

  /** Starting from `Poll`, the program asks to exit exactly when one of the
      events was a quit request, and then always with code 0. */
  lemma {:induction false} ExitIffQuit(window: nat, flow: ControlFlow, events: seq<AppEvent>)
    requires flow == Poll || flow == ExitWithCode(0)
    ensures var r := RunEvents(window, flow, events);
      && (r == Poll || r == ExitWithCode(0))
      && (r == ExitWithCode(0) <==>
            flow == ExitWithCode(0) || exists k :: 0 <= k < |events| && IsQuit(window, events[k]))
    decreases |events|
  {
    if |events| > 0 {
      var next := HandleEvent(window, flow, events[0]);
      ExitIffQuit(window, next, events[1..]);
      var r := RunEvents(window, flow, events);
      assert r == RunEvents(window, next, events[1..]);
      if exists k :: 0 <= k < |events| && IsQuit(window, events[k]) {
        var k :| 0 <= k < |events| && IsQuit(window, events[k]);
        if k > 0 {
          assert events[1..][k - 1] == events[k];
        }
      }
      if exists k :: 0 <= k < |events[1..]| && IsQuit(window, events[1..][k]) {
        var k :| 0 <= k < |events[1..]| && IsQuit(window, events[1..][k]);
        assert events[k + 1] == events[1..][k];
      }
    }
  }

  /** Events of other windows never end the program. */
  lemma ForeignEventsIgnored(window: nat, events: seq<AppEvent>)
    requires forall k :: 0 <= k < |events| ==> events[k].AppWindowEvent? ==> events[k].windowId != window
    ensures RunEvents(window, Poll, events) == Poll
  {
    ExitIffQuit(window, Poll, events);
  }
}

=== FILE: textures.dfy ===
/** The texture wrapper `Image`: file-extension dispatch, labels, the upload
    length check and resizing. GPU objects are reduced to the texture's extent
    and label. */
module Textures {
  import opened Numeric
  import opened Wrappers
  import opened Winit

  datatype ImageFormat = Jpeg | Png

  /** An `Image`: the extent of its GPU texture and its label. */
  datatype Image = Image(width: U32, height: U32, name: string)

  /** What File::open plus image::load hand back: the decoded extent and its RGBA8 bytes. */
  datatype Decoded = Decoded(width: U32, height: U32, rgba: seq<Byte>)

  /** `Image::new`: a texture of the given extent, named by `label`. */
  function New(width: U32, height: U32, name: string): (img: Image)
    ensures Size(img) == Winit.Size(width, height)
    ensures img.name == name
  {
    Image(width, height, name)
  }

  /** `Image::size`. */
  function Size(img: Image): (s: Winit.Size)
    ensures s.width == img.width && s.height == img.height
  {
    Winit.Size(img.width, img.height)
  }

  /** Texel count as the source computes it: a `u32` product. */
  function PixelCount(img: Image): U32
  {
    WrappingMul(img.width, img.height)
  }

  /** `Image::load_image`: the upload asserts that the byte count divided by four
      (rounding down) equals the texel count; on success the bytes go to the texture. */
  function LoadImage(img: Image, rgba: seq<Byte>): (r: Result<seq<Byte>>)
    ensures r.Ok? <==> |rgba| / 4 == PixelCount(img)
    ensures r.Ok? ==> r.value == rgba
  {
    if PixelCount(img) == |rgba| / 4 then Ok(rgba) else Panic("pixel count does not match buffer length")
  }

  /** The upload check accepts exactly the lengths 4n .. 4n + 3 for n texels:
      up to three trailing bytes slip through. */
  lemma LoadImageAcceptedLengths(img: Image, rgba: seq<Byte>)
    ensures LoadImage(img, rgba).Ok? <==> 4 * PixelCount(img) <= |rgba| < 4 * PixelCount(img) + 4
  {
  }

  /** `Image::resize`: a no-op for the current extent, otherwise a fresh texture
      of the new extent under the old label. */
  function Resize(img: Image, newSize: Winit.Size): (r: Image)
    ensures Size(r) == newSize
    ensures r.name == img.name
    ensures Size(img) == newSize ==> r == img
  {
    if img.width == newSize.width && img.height == newSize.height then img
    else New(newSize.width, newSize.height, img.name)
  }

  lemma ResizeIdempotent(img: Image, newSize: Winit.Size)
    ensures Resize(Resize(img, newSize), newSize) == Resize(img, newSize)
  {
  }

  /** Splits a path at every `/`. */
  function Segments(path: string): (segs: seq<string>)
    ensures |segs| >= 1
    ensures forall k :: 0 <= k < |segs| ==> '/' !in segs[k]
    decreases |path|
  {
    if '/' !in path then [path]
    else
      var i := FirstIndex(path, '/');
      [path[..i]] + Segments(path[i + 1..])
  }

  function FirstIndex(s: string, c: char): (i: nat)
    requires c in s
    ensures i < |s| && s[i] == c && c !in s[..i]
  {
    if s[0] == c then 0 else 1 + FirstIndex(s[1..], c)
  }

  /** The named components of a path: segments other than empty ones and `.`. */
  function Named(segs: seq<string>): (r: seq<string>)
    ensures forall k :: 0 <= k < |r| ==> r[k] != "" && r[k] != "." && r[k] in segs
  {
    if |segs| == 0 then []
    else if segs[0] == "" || segs[0] == "." then Named(segs[1..])
    else [segs[0]] + Named(segs[1..])
  }

  /** `Path::file_name` for `/`-separated paths: the last component, unless that
      is `..` or there is none (the root, `.`, the empty path). */
  function FileName(path: string): (r: Option<string>)
    ensures r.Some? ==> r.value != "" && r.value != "." && r.value != ".." && '/' !in r.value
  {
    var named := Named(Segments(path));
    if |named| == 0 || named[|named| - 1] == ".." then None
    else
      assert named[|named| - 1] in Segments(path);
      Some(named[|named| - 1])
  }

  /** Splitting `dir + "/" + name` adds `name` as the last segment. */
  lemma {:induction false} SegmentsAppend(dir: string, name: string)
    requires '/' !in name
    ensures Segments(dir + "/" + name) == Segments(dir) + [name]
    decreases |dir|
  {
    var path := dir + "/" + name;
    if '/' !in dir {
      SplitAt(path, dir, name);
      assert Segments(name) == [name];
    } else {
      var i := FirstIndex(dir, '/');
      var rest := dir[i + 1..];
      assert dir == dir[..i] + "/" + rest;
      assert path == dir[..i] + "/" + (rest + "/" + name);
      SplitAt(path, dir[..i], rest + "/" + name);
      SegmentsAppend(rest, name);
      SplitAt(dir, dir[..i], rest);
    }
  }

  /** A path made of a `/`-free head, a `/` and a tail splits into the head's
      segment followed by the tail's segments. */
  lemma SplitAt(path: string, head: string, tail: string)
    requires path == head + "/" + tail && '/' !in head
    ensures Segments(path) == [head] + Segments(tail)
  {
    assert path[..|head|] == head && path[|head|] == '/';
    FirstIndexOfPrefix(path, head);
    assert path[|head| + 1..] == tail;
  }

  /** The first `/` of a path that starts with a `/`-free prefix followed by `/`
      is the one right after the prefix. */
  lemma {:induction false} FirstIndexOfPrefix(s: string, prefix: string)
    requires |prefix| < |s| && s[..|prefix|] == prefix && s[|prefix|] == '/' && '/' !in prefix
    ensures '/' in s && FirstIndex(s, '/') == |prefix|
    decreases |prefix|
  {
    if |prefix| > 0 {
      assert s[0] == prefix[0];
      assert s[1..][..|prefix| - 1] == prefix[1..];
      FirstIndexOfPrefix(s[1..], prefix[1..]);
    }
  }

  /** A named segment at the end stays the last named component. */
  lemma {:induction false} NamedAppend(segs: seq<string>, name: string)
    requires name != "" && name != "."
    ensures Named(segs + [name]) == Named(segs) + [name]
    decreases |segs|
  {
    if |segs| == 0 {
      assert [] + [name] == [name];
    } else {
      assert (segs + [name])[1..] == segs[1..] + [name];
      NamedAppend(segs[1..], name);
    }
  }

  /** A single component is its own file name. */
  lemma FileNameOfComponent(name: string)
    requires name != "" && name != "." && name != ".." && '/' !in name
    ensures FileName(name) == Some(name)
  {
    assert Segments(name) == [name];
    assert Named([name]) == [name];
  }

  /** The file name of `dir/name` is `name`, whatever the directory part, except
      that a trailing `..` has none. */
  lemma FileNameOfChild(dir: string, name: string)
    requires name != "" && name != "." && '/' !in name
    ensures FileName(dir + "/" + name) == if name == ".." then None else Some(name)
  {
    SegmentsAppend(dir, name);
    NamedAppend(Segments(dir), name);
  }

  function LastIndex(s: string, c: char): (i: nat)
    requires c in s
    ensures i < |s| && s[i] == c && c !in s[i + 1..]
  {
    if s[|s| - 1] == c then |s| - 1
    else
      assert s[..|s| - 1][LastIndex(s[..|s| - 1], c)] == c;
      LastIndex(s[..|s| - 1], c)
  }

  /** `Path::extension` applied to a file name: the text after the last `.`,
      unless there is no `.`, the only `.` starts the name, or the name is `..`. */
  function Extension(name: string): (r: Option<string>)
    ensures r.Some? <==> name != ".." && '.' in name && LastIndex(name, '.') > 0
    ensures r.Some? ==>
      && '.' !in r.value
      && |r.value| + 1 < |name|
      && name[|name| - |r.value| - 1] == '.'
      && name[|name| - |r.value|..] == r.value
  {
    if name == ".." || '.' !in name then None
    else
      var i := LastIndex(name, '.');
      if i == 0 then None else Some(name[i + 1..])
  }

  /** The extension of a path's file name, if it has both. */
  function PathExtension(path: string): Option<string>
  {
    match FileName(path)
    case None => None
    case Some(name) => Extension(name)
  }

  /** The format dispatch of `Image::from_path`, case-sensitive. */
  function FormatOf(extension: Option<string>): (r: Option<ImageFormat>)
    ensures r == Some(Jpeg) <==> extension == Some("jpg") || extension == Some("jpeg")
    ensures r == Some(Png) <==> extension == Some("png")
    ensures r.None? <==> extension !in {Some("jpg"), Some("jpeg"), Some("png")}
  {
    match extension
    case None => None
    case Some(e) =>
      if e == "jpg" || e == "jpeg" then Some(Jpeg)
      else if e == "png" then Some(Png)
      else None
  }

  /** `Image::from_path`. The format is decided from the extension first; only a
      recognised one reaches `load`, which stands for opening and decoding the file.
      `Ok(None)` is the source's `None`; `Panic` is the upload assertion failing. */
  function FromPath(path: string, explicitLabel: Option<string>,
                    load: (string, ImageFormat) -> Option<Decoded>): (r: Result<Option<Image>>)
    ensures FormatOf(PathExtension(path)).None? ==> r == Ok(None)
    ensures r.Ok? && r.value.Some? ==>
      && FormatOf(PathExtension(path)).Some?
      && FileName(path).Some?
      && load(path, FormatOf(PathExtension(path)).value).Some?
      && var d := load(path, FormatOf(PathExtension(path)).value).value;
         && Size(r.value.value) == Winit.Size(d.width, d.height)
         && r.value.value.name == (if explicitLabel.Some? then explicitLabel.value else FileName(path).value)
    ensures FormatOf(PathExtension(path)).Some? && load(path, FormatOf(PathExtension(path)).value).None? ==>
      r == Ok(None)
    ensures r.Panic? <==>
      && FormatOf(PathExtension(path)).Some?
      && load(path, FormatOf(PathExtension(path)).value).Some?
      && var d := load(path, FormatOf(PathExtension(path)).value).value;
         |d.rgba| / 4 != WrappingMul(d.width, d.height)
  {
    match FormatOf(PathExtension(path))
    case None => Ok(None)
    case Some(format) =>
      match FileName(path)
      case None => Ok(None)
      case Some(fileName) =>
        var name := if explicitLabel.Some? then explicitLabel.value else fileName;
        match load(path, format)
        case None => Ok(None)
        case Some(d) =>
          var img := New(d.width, d.height, name);
          match LoadImage(img, d.rgba)
          case Panic(reason) => Panic(reason)
          case Ok(_) => Ok(Some(img))
  }

  /** An unrecognised or missing extension is rejected before any file is opened:
      the outcome does not depend on the loader at all. */
  lemma RejectedBeforeOpening(path: string, explicitLabel: Option<string>,
                              load1: (string, ImageFormat) -> Option<Decoded>,
                              load2: (string, ImageFormat) -> Option<Decoded>)
    requires PathExtension(path) !in {Some("jpg"), Some("jpeg"), Some("png")}
    ensures FromPath(path, explicitLabel, load1) == FromPath(path, explicitLabel, load2) == Ok(None)
  {
  }

  /** Once a format is recognised a file name exists, so the label always resolves. */
  lemma RecognisedHasLabel(path: string, explicitLabel: Option<string>)
    requires FormatOf(PathExtension(path)).Some?
    ensures FileName(path).Some?
  {
  }

  /** A decoder that hands back exactly four bytes per texel never trips the upload check. */
  lemma FromPathLoadsWellFormed(path: string, explicitLabel: Option<string>,
                                load: (string, ImageFormat) -> Option<Decoded>)
    requires FormatOf(PathExtension(path)).Some?
    requires var d := load(path, FormatOf(PathExtension(path)).value);
      d.Some? && d.value.width * d.value.height < U32_LIMIT
      && |d.value.rgba| == 4 * d.value.width * d.value.height
    ensures FromPath(path, explicitLabel, load).Ok?
    ensures FromPath(path, explicitLabel, load).value.Some?
  {
  }
}

=== FILE: vector.dfy ===
/** Exact real-valued stand-ins for nalgebra's `Vector3<f32>` and `Vector4<f32>`. */
module Vector {

  datatype Vec3 = Vec3(x: real, y: real, z: real)

  datatype Vec4 = Vec4(x: real, y: real, z: real, w: real)

  const Zero3: Vec3 := Vec3(0.0, 0.0, 0.0)

  function Add(a: Vec3, b: Vec3): Vec3
  {
    Vec3(a.x + b.x, a.y + b.y, a.z + b.z)
  }

  function Sub(a: Vec3, b: Vec3): Vec3
  {
    Vec3(a.x - b.x, a.y - b.y, a.z - b.z)
  }

  function Neg(a: Vec3): Vec3
  {
    Vec3(-a.x, -a.y, -a.z)
  }

  function Scale(a: Vec3, k: real): Vec3
  {
    Vec3(a.x * k, a.y * k, a.z * k)
  }

  lemma AddZero(p: Vec3)
    ensures Add(p, Zero3) == p
  {
  }

  lemma ScaleZero(k: real)
    ensures Scale(Zero3, k) == Zero3
  {
  }

  lemma ScaleAdd(a: Vec3, b: Vec3, k: real)
    ensures Scale(Add(a, b), k) == Add(Scale(a, k), Scale(b, k))
  {
  }

  lemma ScaleSub(a: Vec3, b: Vec3, k: real)
    ensures Scale(Sub(a, b), k) == Sub(Scale(a, k), Scale(b, k))
  {
  }

  function Dot(a: Vec3, b: Vec3): real
  {
    a.x * b.x + a.y * b.y + a.z * b.z
  }

  function Cross(a: Vec3, b: Vec3): Vec3
  {
    Vec3(a.y * b.z - a.z * b.y, a.z * b.x - a.x * b.z, a.x * b.y - a.y * b.x)
  }

  /** `max` of two reals, as `f32::max` on non-NaN operands. */
  function Max(a: real, b: real): real
  {
    if a >= b then a else b
  }

  /** One component of nalgebra's `simd_clamp(0, 1)`: `max(0)` then `min(1)`. */
  function Clamp01(v: real): (r: real)
    ensures 0.0 <= r <= 1.0
    ensures 0.0 <= v <= 1.0 ==> r == v
    ensures v < 0.0 ==> r == 0.0
    ensures v > 1.0 ==> r == 1.0
  {
    var lo := if v < 0.0 then 0.0 else v;
    if lo > 1.0 then 1.0 else lo
  }

  /** `simd_clamp(Vector4::zeros(), Vector4::new(1, 1, 1, 1))`, componentwise. */
  function Clamp4(v: Vec4): Vec4
  {
    Vec4(Clamp01(v.x), Clamp01(v.y), Clamp01(v.z), Clamp01(v.w))
  }
}

=== FILE: winit.dfy ===
/** The slice of the windowing library's event types the core reacts to. */
module Winit {
  import opened Numeric
  import opened Wrappers

  /** `PhysicalSize<u32>`. */
  datatype Size = Size(width: U32, height: U32)

  datatype ElementState = Pressed | Released

  /** Virtual key codes; only the ones the core names are distinguished. */
  datatype Key = W | A | S | D | Space | LShift | C | Escape | OtherKey(code: nat)

  /** `WindowEvent`: cursor moves carry the absolute cursor position; a keyboard
      event may lack a virtual key code. */
  datatype WindowEvent =
    | CursorMoved(x: real, y: real)
    | KeyboardInput(state: ElementState, key: Option<Key>)
    | CloseRequested
    | OtherWindowEvent
}

=== FILE: wrappers.dfy ===
/** Failure-carrying datatypes shared by the whole model. */
module Wrappers {

  /** Rust's `Option<T>`. */
  datatype Option<+T> = None | Some(value: T)

  /** The outcome of code that may panic: either a value or a panic with its reason. */
  datatype Result<+T> = Ok(value: T) | Panic(reason: string)
}
